=== FILE: README.md ===
# Flux wallpaper and club pages — a Dafny model

Flux is a React application whose background is an animated canvas
(`FluxCanvas`). The canvas holds four populations:

- foreground particles that drift, bounce off the viewport edges and are
  linked into a proximity graph;
- background stars that shift with the pointer (parallax) and wrap around;
- celestial bodies chosen by the theme (a planet and moon, a sun, or a
  black hole that swallows and respawns particles);
- shockwave rings started by mouse presses.

The shell (`App`) cycles through five themes and three render modes
(NET, MESH, PARTICLES). Two small pages sit beside the canvas: proposal
cards showing an approval percentage (`Voting`), and a member directory
with a case-insensitive search (`Members`).

This project models that logic as pure Dafny functions over immutable
datatypes, one module per concern:

| module | what it models |
|---|---|
| `Types`, `Optional` | the records of `types.ts` (particles, stars, bodies, rings, render modes) and an option type |
| `RealArith` | shared facts about products and absolute values of reals |
| `HexColor` | `hexToRgb` and the two-digits-per-channel encoder it inverts |
| `Epoch` | `initSimulation`: particle and star counts, their spawn ranges, and the bodies per theme name |
| `Orbit` | the orbit update at the head of `drawCelestial` |
| `Shockwaves` | ring creation on mouse press; per-frame growth and removal |
| `Particles` | one particle's frame: integrate, bounce, black-hole respawn or pull, pointer push, ring kicks, drag |
| `StarField` | the parallax shift and the star wrap-around with JavaScript's `%` |
| `Proximity` | which index pairs become edges and which triples become triangles |
| `Canvas` | the world between frames, the frame itself, the pointer handlers, resize and effect restart |
| `App` | the theme table, both cycling buttons and the initial state |
| `Voting` | the approval percentage and the active-only vote buttons |
| `Members` | the search filter, the "no members found" note and the four-digit id label |
| `Seqs` | order-preserving filtering (`Array.prototype.filter`) |

Floating-point numbers are modelled as exact `real`s. Each call to
`Math.random()` becomes a value in `[0, 1)`: `initSimulation` reads a stream
`rand: nat -> Unit` in the order the JavaScript loop calls it, and a
particle's respawn takes a pair of such draws. `Math.cos` and `Math.sin`
enter as a `Trig` parameter. The pointer's push and a ring's kick both need
`sqrt` and `atan2`, so they enter as the functions of a `Forces` parameter.
The gates that compare a square root with a radius are written on squared
distances; `WithinIsDistance` and `InBandIsDistance` prove the two forms
agree.

## Model

| member | source | states |
|---|---|---|
| HexColor.ScanHex | components/FluxCanvas.tsx:23-25 | `parseInt(_, 16)` on the two-digit groups the pattern has already vetted: a value is produced exactly when every character is a hex digit of either case, and it is below 16 to the power of the length; the model does not follow `parseInt` on other strings |
| HexColor.ParseColor | components/FluxCanvas.tsx:21 | the pattern accepts a string exactly when it is six hex digits, optionally preceded by `#` |
| HexColor.HexToRgb | components/FluxCanvas.tsx:20-27 | any string the pattern rejects gives black (0,0,0); any string it accepts gives the parsed colour |
| HexColor.ParseDigits | components/FluxCanvas.tsx:22-26 | channel r comes from digits 1-2, g from digits 3-4 and b from digits 5-6, each read as 16·high + low |
| HexColor.DecodeEncode | components/FluxCanvas.tsx:20-27 | round trip: encoding any colour as two hex digits per channel, with or without `#` and in either case, then decoding it gives the colour back |
| HexColor.EncodeDecode | components/FluxCanvas.tsx:20-27 | reverse direction: re-encoding a decoded colour gives the input's six digits in lower case, so decoding is injective up to case and `#` |
| HexColor.RejectedForms | components/FluxCanvas.tsx:21-26 | `#fff`, `fff`, the empty string, the 8-digit `#ffffff80`, and the six-character `#gggggg` and `12345z` that hold non-hex digits, all fall back to black |
| HexColor.SampleColours | components/FluxCanvas.tsx:20-27 | `#ef4444` decodes to (239,68,68), `000000` to black and upper-case `#D946EF` to (217,70,239) |
| Epoch.ParticleCount | components/FluxCanvas.tsx:48-50 | the particle loop runs the least n not below min(w·h/9000, 180), so never more than 180 times |
| Epoch.SampleCounts | components/FluxCanvas.tsx:48 | 800×600 gives 54 particles, 1600×1200 gives the cap of 180, a zero-width viewport gives none |
| Epoch.InitParticles | components/FluxCanvas.tsx:49-59 | the list is rebuilt with exactly that many particles; each lies on screen with velocity in [-0.4, 0.4), size in [1, 3) and life in [0, 100) |
| Epoch.InitStars | components/FluxCanvas.tsx:62-72 | exactly 150 stars; each lies on screen with depth z in [0.1, 0.9), size in [0, 1.5) and brightness in [0, 1) |
| Epoch.InitBodies | components/FluxCanvas.tsx:75-126 | DEEP_SPACE yields one black hole, centred and without an orbit; CRIMSON_TIDE one sun; every other name two planets; so a black hole exists iff the theme is DEEP_SPACE, and every radius is positive |
| Epoch.Init | components/FluxCanvas.tsx:41-127 | one epoch: population sizes, spawn ranges, and exactly the theme's bodies (a black hole only for DEEP_SPACE, the sun for CRIMSON_TIDE, planet and moon otherwise) |
| Orbit.Advance | components/FluxCanvas.tsx:130-135 | a body with a positive orbit radius advances its angle by exactly its orbit speed; a body without an orbit is left entirely unchanged; kind, radius, colour and orbit never change |
| Orbit.AdvanceAll | components/FluxCanvas.tsx:229 | every body is updated on its own, in order |
| Orbit.OnOrbitCircle | components/FluxCanvas.tsx:133-134 | with consistent cosine and sine, an orbiting body lies on the circle of its orbit radius around the viewport centre |
| Orbit.AngleAfterFrames | components/FluxCanvas.tsx:131-132 | after n frames the angle has grown by exactly n times the orbit speed; a body without an orbit never moves |
| Shockwaves.OpacityPositive | components/FluxCanvas.tsx:235-236 | a ring's opacity is positive exactly while its radius is below its maximum |
| Shockwaves.OpacityDecreases | components/FluxCanvas.tsx:234-235 | growing a ring strictly lowers its opacity |
| Shockwaves.Survivors | components/FluxCanvas.tsx:232-239 | after a frame every remaining ring has radius below its maximum, and no ring is added |
| Shockwaves.SurvivorsVisible | components/FluxCanvas.tsx:235-239 | every ring left after a frame is drawn with positive opacity |
| Shockwaves.Age | components/FluxCanvas.tsx:232-239 | the backward loop that splices out rings whose opacity is no longer positive computes exactly the grown rings that are still alive, in their original order |
| Shockwaves.SpliceStep | components/FluxCanvas.tsx:233-239 | one iteration at index i, growing the ring and either splicing it out or writing it back, extends the aged suffix by that ring |
| Shockwaves.SurvivorsAppend | components/FluxCanvas.tsx:232-239 | rings age independently of each other: ageing a concatenation ages each part |
| Shockwaves.AgeFramesAppend | components/FluxCanvas.tsx:232-239 | rings stay independent over any number of frames |
| Shockwaves.RingAfterFrames | components/FluxCanvas.tsx:234-237 | a ring is present after n frames exactly while its radius plus 10n is below its maximum, and then it has grown by 10n |
| Shockwaves.Press | components/FluxCanvas.tsx:382-391 | a press appends exactly one ring at the press point with radius 1, maximum radius 500 and strength 50, and leaves the earlier rings untouched |
| Shockwaves.PressedRingLifetime | components/FluxCanvas.tsx:382-391 | a pressed ring is drawn on frames 1 to 49 with radius 1 + 10n and is gone from frame 50 on |
| Particles.WithinIsDistance | components/FluxCanvas.tsx:267-270 | the squared-distance gate agrees with `dist < radius` for the true distance |
| Particles.InBandIsDistance | components/FluxCanvas.tsx:297-300 | the squared-distance band test agrees with `abs(dist - radius) < 30` |
| Particles.PullStrength | components/FluxCanvas.tsx:274-278 | between the horizon and 400, the pull has the strength 50/dist (its squared length times the squared distance is 2500) and points toward the hole on each axis |
| Particles.PullIsDistance | components/FluxCanvas.tsx:274-278 | the source's pull `dx/dist · (50/dist)` for the true distance equals the model's 50·dx/d² |
| Particles.OutsideHorizon | components/FluxCanvas.tsx:274-278 | outside a positive horizon the squared distance is positive, so the pull's division is defined |
| Particles.Kicks | components/FluxCanvas.tsx:296-305 | a particle outside every ring's band gets no kick; a single ring whose band holds the particle gives exactly that ring's kick |
| Particles.KicksAppend | components/FluxCanvas.tsx:296-305 | kicks add up over the rings: the rings of a + b kick by the sum of what the rings of a and of b kick by, so each ring whose band holds the particle adds exactly its own kick |
| Particles.Step | components/FluxCanvas.tsx:252-309 | size and life never change; a particle that lands inside the horizon is respawned at (u·w, 0 or h) and feels no pull; any other particle moves by exactly its velocity; the new velocity is 0.98 times the bounced one (a component negated exactly when its new coordinate is outside the viewport) plus the black hole's pull at the moved position, minus the pointer's push and plus the rings' kicks at the final position |
| Particles.RespawnOnEdge | components/FluxCanvas.tsx:270-273 | a respawned particle sits on the top or bottom edge with x in [0, w) |
| Particles.QuietStep | components/FluxCanvas.tsx:253-258 | with no force acting, the position becomes position + velocity without clamping, each speed component shrinks to 98%, and a component changes sign exactly when the new coordinate is outside the viewport |
| Particles.StepAll | components/FluxCanvas.tsx:252-309 | each particle is stepped on its own; count and order are kept |
| Particles.FreeStepIsStep | components/FluxCanvas.tsx:252-309 | with no black hole, no active pointer and no rings, a frame is just move, bounce and drag |
| Particles.FreeStepFacts | components/FluxCanvas.tsx:253-258 | the free step moves by the velocity and keeps 98% of each speed component |
| Particles.DriftBound | components/FluxCanvas.tsx:307-308 | after n free frames each speed component is 0.98^n of the initial one, and the distance travelled along each axis is at most 50(1 − 0.98^n) times the initial speed |
| Particles.RespawnMayStayInside | components/FluxCanvas.tsx:270-273 | a respawned particle can land inside the horizon again: a concrete viewport and hole where it does, whatever the pointer and the rings |
| StarField.Trunc | components/FluxCanvas.tsx:214 | the integer part rounds toward zero |
| StarField.JsRem | components/FluxCanvas.tsx:214 | JavaScript's `%` truncates: the remainder is smaller in magnitude than the divisor, has the sign of the dividend, and differs from the dividend by a whole multiple of the divisor |
| StarField.Wrap | components/FluxCanvas.tsx:213-217 | for a positive extent the wrapped coordinate lies in [0, extent); a zero extent gives no position, as JavaScript gives NaN |
| StarField.WrapIsFloorMod | components/FluxCanvas.tsx:213-217 | remainder-then-add-if-negative is the floored modulus p − s·⌊p/s⌋ |
| StarField.WrapOnScreen | components/FluxCanvas.tsx:214-217 | a coordinate already on screen is drawn where it is |
| StarField.Parallax | components/FluxCanvas.tsx:201-204 | the parallax is zero while the pointer is inactive, and otherwise the offset from the pointer to the centre |
| StarField.StarPosition | components/FluxCanvas.tsx:207-217 | a star is drawn at its position shifted by 0.1·z·parallax (so stars with larger z, the nearer ones, move more), reduced by the floored remainder into the viewport, and so inside it; on a viewport without area it has no position |
| StarField.RestingStar | components/FluxCanvas.tsx:201-217 | with the pointer away, a star spawned on screen is drawn at its own position |
| Proximity.Graph | components/FluxCanvas.tsx:312-356 | PARTICLES mode emits nothing; otherwise the edges are exactly the pairs i<j closer than √20000, and the triangles, in MESH mode only, exactly the triples i<j<k whose three sides all are; both come out in increasing lexicographic order |
| Proximity.Row | components/FluxCanvas.tsx:318-355 | the scan over j > i for one i adds exactly the edges (i, j) and, in MESH mode, the triangles (i, j, k), keeping both lists in order |
| Proximity.Fan | components/FluxCanvas.tsx:334-353 | for one edge (i, j), the inner scan adds exactly the k > j near both ends, in increasing order |
| Canvas.FindBlackHole | components/FluxCanvas.tsx:261 | `find` returns the first black hole, and none exactly when there is no black hole |
| Canvas.HoleOf | components/FluxCanvas.tsx:261-264 | the particles feel a black hole exactly when the bodies include one; the horizon is the first black hole's own radius; the hole lies at the orbit radius from the centre shifted by 5% of the parallax (given consistent cosine and sine), and exactly at that shifted centre when the orbit radius is 0 |
| Canvas.NextWorld | components/FluxCanvas.tsx:192-309 | one frame counts the tick, moves the bodies and ages the rings first, and then steps every particle against the moved black hole and the surviving rings; stars, pointer and viewport are untouched and the world's invariant is kept |
| Canvas.Frame | components/FluxCanvas.tsx:192-356 | the frame, with the rings aged by the backward splice loop, produces exactly that next world; PARTICLES mode draws no graph, otherwise the edges and (in MESH mode) triangles are exactly those of the stepped particles; each particle keeps its size and life |
| Canvas.PointerMove | components/FluxCanvas.tsx:376-380 | a move records the position and activates the pointer; nothing else changes |
| Canvas.PointerLeave | components/FluxCanvas.tsx:381 | leaving deactivates the pointer and keeps its last position; nothing else changes |
| Canvas.PointerDown | components/FluxCanvas.tsx:382-391 | a press adds exactly one ring after the existing ones; nothing else changes |
| Canvas.MoveThenLeave | components/FluxCanvas.tsx:376-381 | leave after move keeps the moved-to position; leave is idempotent; after a leave the parallax is zero |
| Canvas.Resize | components/FluxCanvas.tsx:375 | a resize rebuilds the populations for the new viewport, with the particle and star counts, the spawn ranges inside the new viewport and exactly the theme's bodies of a fresh epoch, and keeps the tick, the rings and the pointer |
| Canvas.ResizeForgetsPast | components/FluxCanvas.tsx:49-75 | the rebuilt populations do not depend on what the world held before |
| Canvas.Start | components/FluxCanvas.tsx:36-38 | a new effect starts at tick 0 with a fresh simulation for the viewport (counts, spawn ranges and exactly the theme's bodies), keeping the rings and the pointer held in refs |
| Canvas.QuietFrame | components/FluxCanvas.tsx:252-309 | in a world with no black hole, no active pointer and no rings, the frame's next world has every particle moved by the free step alone |
| App.CycleTheme | App.tsx:48-50 | the theme index stays in 0..4, moves to the next theme and wraps from the last to the first |
| App.NextRenderMode | App.tsx:52-58 | the render-mode button moves one step along NET, MESH, PARTICLES and back to NET (position + 1 mod 3), so it always changes the mode |
| App.PressTheme | App.tsx:48-50 | a theme press moves the index to the next theme, leaves it valid and does not touch the render mode |
| App.PressMode | App.tsx:52-58 | a mode press moves to the next render mode and does not touch the theme |
| App.ThemeAfterPresses | App.tsx:49 | n presses from index i land on (i + n) mod 5 |
| App.FivePressesCycle | App.tsx:49 | five presses return to the start, and the five indices on the way are all different, so every theme is shown once |
| App.ModeCycle | App.tsx:53-57 | three mode presses return to the start, passing through three different modes |
| App.InitialState | App.tsx:45-46 | the page opens on CYBER_PUNK in MESH mode |
| App.SpecialThemes | App.tsx:6-42 | exactly one theme is DEEP_SPACE and exactly one is CRIMSON_TIDE |
| App.OneBlackHolePerRound | App.tsx:6-50 | over any five consecutive theme presses exactly one epoch has a black hole |
| App.ShippedColoursParse | App.tsx:6-42 | every shipped primary and secondary colour, which the canvas decodes, matches the hex pattern, so neither falls back to black; the background, which the canvas uses directly as a fill style, matches the pattern too |
| Voting.Round | components/Voting.tsx:27 | `Math.round` gives the integer within a half of its argument, halves going up |
| Voting.ApprovalPercent | components/Voting.tsx:26-27 | no votes gives 0%; otherwise the integer nearest to the exact share in percent; for non-negative counts it lies in 0..100 |
| Voting.ApprovalAsIntegers | components/Voting.tsx:27 | the percentage equals (200·for + total) div (2·total), an independent integer formula |
| Voting.Unanimous | components/Voting.tsx:27 | votes only for give 100%; no votes for gives 0% |
| Voting.Card | components/Voting.tsx:27-67 | the Vote For / Vote Against buttons are shown exactly when the proposal is Active; the percentage shown is the approval percent, which for a non-empty tally is (200·for + total) div (2·total) and lies in 0..100 |
| Voting.ShippedCards | constants.ts:46-65 | the shipped proposals show 79% with buttons (45 for, 12 against) and 80% without (120 for, 30 against) |
| Members.LowerChar | components/Members.tsx:10-11 | lower-casing leaves no upper-case letter and changes nothing else |
| Members.Lower | components/Members.tsx:10-11 | `toLowerCase` keeps the length and lower-cases every character |
| Members.LowerAbsorbs | components/Members.tsx:10-11 | lower-casing is idempotent and forgets an earlier upper-casing |
| Members.Includes | components/Members.tsx:10-11 | the left-to-right scan finds the term exactly when it occurs at some offset |
| Members.Search | components/Members.tsx:9-12 | the result is an order-preserving subsequence of the members, and it keeps a member exactly when the lower-cased term occurs in its lower-cased name or role, each matching member as many times as it occurs |
| Seqs.FilterIsSubseq | components/Members.tsx:9 | `filter` never reorders: its result is a subsequence of its input |
| Seqs.FilterCounts | components/Members.tsx:9 | `filter` keeps every occurrence of a kept value and no occurrence of the others |
| Members.EmptyTermKeepsAll | components/Members.tsx:9-12 | an empty search box lists every member, in order |
| Members.CaseInsensitive | components/Members.tsx:10-11 | terms that agree after lower-casing, such as a term and its upper-cased form, give the same result |
| Members.ShowsEmptyNote | components/Members.tsx:92-96 | the "No members found" note is shown exactly when no member matches |
| Members.PadId | components/Members.tsx:59 | `padStart(4, '0')` has length max(4, length of the id), ends with the id, is all zeros before it, and leaves ids of four or more characters unchanged |
| Members.PadIdRoundTrip | components/Members.tsx:59 | an id without a leading zero is recovered from its label by trimming the zeros |
| Members.SampleIds | components/Members.tsx:59 | id `1` shows as `0001`; id `12345` is unchanged |

## Left out

- Drawing: every canvas call, gradient, shadow, `rgba(...)` string and the star flicker only paint.
- Edge opacity `1 - sqrt(d)/141`: it is negative for squared distances between 19881 and 20000; only the choice of edges and triangles is modelled.
- Trigonometry and square roots: orbit coordinates use the `Trig` parameter. The pointer push and the ring kick are the `Forces` parameter, so their magnitudes are not modelled. The black-hole pull is written as `50·dx/d²`, which `Particles.PullIsDistance` proves equal to the source's form.
- IEEE-754 behaviour: rounding and overflow. The one NaN the wrap-around can produce, from a zero width or height, is modelled as "no position".
- `Math.round` at exact halves follows the mathematical rule (halves go up), as JavaScript's does for non-negative arguments; the share it rounds is the exact rational one, not the double product.
- `Math.random()`, `Date.now()` and the viewport size are parameters. The respawn draws are one pair per particle; the source draws them from the shared stream only when a respawn happens.
- React plumbing: `useEffect` registration and teardown, `requestAnimationFrame`, canvas sizing, and the `mouseRef` initial value at components/FluxCanvas.tsx:11.
- Particle `baseX` and `baseY` (types.ts:16-17) and `type` and `trail` (types.ts:18-19) are never set or read by the canvas, so the model's particle has no such fields.
- Members.Lower: only ASCII letters are case-folded, whereas `toLowerCase` folds all of Unicode.
- Members.LowerChar: only ASCII capitals are folded, so "changes nothing else" does not hold for non-ASCII capitals under `toLowerCase`.
- Voting.ApprovalPercent: vote counts are integers, whereas the TypeScript type also admits fractions. The share is rounded exactly, whereas the page rounds the double `(f/t)*100`, which can fall just below a half. With 23 for and 17 against it is 57.49999999999999, so the page shows 57 where the model gives 58; 29 for and 171 against shows 14 where the model gives 15.
- The remaining UI, network and chart files: the AI advisor, the Gemini service, the HUD clock, the layout and the dashboard.

Facts about the code that the model keeps:

- types.ts:18-19 declares a COMET particle type and a particle trail; the canvas never sets either, and nothing caps a particle's speed apart from the 0.98 drag.
- The link threshold is a squared distance of 20000 (components/FluxCanvas.tsx:324). The capture radius is 400, the pointer radius 200 and the ring band 30.
- Rings and the pointer live in refs, so they survive a resize and a theme or mode change; only the populations are rebuilt.
- A respawned particle is not moved clear of the horizon. `Particles.RespawnMayStayInside` exhibits one that lands inside it again when the horizon reaches the top edge.

=== FILE: app.dfy ===
/** The application shell: the five shipped themes, the theme and render-mode
    buttons, and the state the page starts in. */
module App {
  import opened Types
  import HexColor
  import Epoch

  const Themes: seq<Theme> := [
    Theme("CYBER_PUNK", "#06b6d4", "#d946ef", "#000000", "#22d3ee"),
    Theme("THE_MATRIX", "#22c55e", "#15803d", "#020617", "#4ade80"),
    Theme("DEEP_SPACE", "#818cf8", "#6366f1", "#0f172a", "#a5b4fc"),
    Theme("GOLDEN_HOUR", "#f59e0b", "#ef4444", "#1c1917", "#fbbf24"),
    Theme("CRIMSON_TIDE", "#f43f5e", "#9f1239", "#0f0505", "#fb7185")
  ]

  datatype AppState = AppState(themeIndex: nat, mode: RenderMode)

  /** `useState(0)` and `useState(RenderMode.MESH)`. */
  const Initial: AppState := AppState(0, Mesh)

  predicate Valid(s: AppState) {
    s.themeIndex < |Themes|
  }

  /** The theme handed to the canvas and the HUD. */
  function CurrentTheme(s: AppState): Theme
    requires Valid(s)
  {
    Themes[s.themeIndex]
  }

  /** `cycleTheme`: the next index, wrapping from the last theme to the first. */
  function CycleTheme(i: nat): (r: nat)
    ensures r < |Themes|
    ensures i + 1 < |Themes| ==> r == i + 1
    ensures i + 1 == |Themes| ==> r == 0
  {
    (i + 1) % |Themes|
  }

  /** The modes in the order the mode button visits them. */
  function ModeIndex(m: RenderMode): (k: nat)
    ensures k < 3
  {
    match m
    case Net => 0
    case Mesh => 1
    case Particles => 2
  }

  /** `cycleRenderMode`: NET, MESH, PARTICLES, NET, ... */
  function NextRenderMode(m: RenderMode): (r: RenderMode)
    ensures r != m
    ensures ModeIndex(r) == (ModeIndex(m) + 1) % 3
  {
    if m == Net then Mesh
    else if m == Mesh then Particles
    else Net
  }

  /** The two buttons as transitions of the page state. */
  function PressTheme(s: AppState): (r: AppState)
    ensures Valid(r) && r.mode == s.mode
    ensures r.themeIndex == CycleTheme(s.themeIndex)
  {
    s.(themeIndex := CycleTheme(s.themeIndex))
  }

  function PressMode(s: AppState): (r: AppState)
    ensures r.themeIndex == s.themeIndex && r.mode != s.mode
    ensures r.mode == NextRenderMode(s.mode)
    ensures Valid(s) ==> Valid(r)
  {
    s.(mode := NextRenderMode(s.mode))
  }

  /** `n` presses of the theme button from index `i`. */
  function CycleThemeN(i: nat, n: nat): (r: nat)
    ensures i < |Themes| ==> r < |Themes|
    decreases n
  {
    if n == 0 then i else CycleThemeN(CycleTheme(i), n - 1)
  }

  /** From a valid index, `n` presses land on `(i + n) mod 5`. */
  lemma {:induction false} ThemeAfterPresses(i: nat, n: nat)
    requires i < |Themes|
    ensures CycleThemeN(i, n) == (i + n) % |Themes|
    decreases n
  {
    if n > 0 {
      ThemeAfterPresses(CycleTheme(i), n - 1);
    }
  }

  /** Some press among the next five shows theme `j`. */
  predicate Visited(i: nat, j: nat) {
    exists m | 0 <= m < |Themes| :: CycleThemeN(i, m) == j
  }

  /** Five presses return to the start, and on the way every theme is shown
      exactly once. */
  lemma FivePressesCycle(i: nat)
    requires i < |Themes|
    ensures CycleThemeN(i, |Themes|) == i
    ensures forall j | 0 <= j < |Themes| :: Visited(i, j)
    ensures forall m, m' | 0 <= m < m' < |Themes| :: CycleThemeN(i, m) != CycleThemeN(i, m')
  {
    ThemeAfterPresses(i, |Themes|);
    forall j | 0 <= j < |Themes|
      ensures Visited(i, j)
    {
      Reaches(i, j);
    }
    forall m, m' | 0 <= m < m' < |Themes|
      ensures CycleThemeN(i, m) != CycleThemeN(i, m')
    {
      Distinct(i, m, m');
    }
  }

  lemma Reaches(i: nat, j: nat)
    requires i < |Themes| && j < |Themes|
    ensures Visited(i, j)
  {
    var m := if j >= i then j - i else j - i + |Themes|;
    PressesLand(i, m);
    assert CycleThemeN(i, m) == j;
  }

  lemma Distinct(i: nat, m: nat, m': nat)
    requires i < |Themes| && m < m' < |Themes|
    ensures CycleThemeN(i, m) != CycleThemeN(i, m')
  {
    PressesLand(i, m);
    PressesLand(i, m');
  }

  /** Fewer than five presses from a valid index wrap at most once. */
  lemma PressesLand(i: nat, m: nat)
    requires i < |Themes| && m < |Themes|
    ensures CycleThemeN(i, m) == if i + m < |Themes| then i + m else i + m - |Themes|
  {
    ThemeAfterPresses(i, m);
    WrapOnce(i + m);
  }

  /** Below two rounds, reducing modulo the theme count subtracts at most once. */
  lemma WrapOnce(x: nat)
    requires x < 2 * |Themes|
    ensures x % |Themes| == if x < |Themes| then x else x - |Themes|
  {
  }

  /** Three presses of the mode button return to the start through three
      different modes. */
  lemma ModeCycle(m: RenderMode)
    ensures NextRenderMode(NextRenderMode(NextRenderMode(m))) == m
    ensures NextRenderMode(NextRenderMode(m)) != m
  {
  }

  /** The page opens on CYBER_PUNK in MESH mode. */
  lemma InitialState()
    ensures Valid(Initial) && CurrentTheme(Initial).name == "CYBER_PUNK" && Initial.mode == Mesh
  {
  }

  /** Exactly one theme is DEEP_SPACE and exactly one is CRIMSON_TIDE. */
  lemma SpecialThemes()
    ensures forall k | 0 <= k < |Themes| :: Themes[k].name == "DEEP_SPACE" <==> k == 2
    ensures forall k | 0 <= k < |Themes| :: Themes[k].name == "CRIMSON_TIDE" <==> k == 4
  {
  }

  /** The epoch shown after `m` presses from index `i` has a black hole. */
  predicate BlackHoleAfter(i: nat, m: nat, w: nat, h: nat)
    requires i < |Themes|
  {
    Epoch.HasBlackHole(Epoch.InitBodies(Themes[CycleThemeN(i, m)], w, h))
  }

  /** Over any five consecutive theme presses exactly one epoch has a black hole. */
  lemma OneBlackHolePerRound(i: nat, w: nat, h: nat)
    requires i < |Themes|
    ensures exists m | 0 <= m < |Themes| :: BlackHoleAfter(i, m, w, h)
    ensures forall m, m' | 0 <= m < m' < |Themes| :: !(BlackHoleAfter(i, m, w, h) && BlackHoleAfter(i, m', w, h))
  {
    SpecialThemes();
    var m := if i <= 2 then 2 - i else 2 - i + |Themes|;
    PressesLand(i, m);
    assert BlackHoleAfter(i, m, w, h);
    forall m', m'' | 0 <= m' < m'' < |Themes|
      ensures !(BlackHoleAfter(i, m', w, h) && BlackHoleAfter(i, m'', w, h))
    {
      Distinct(i, m', m'');
      PressesLand(i, m');
      PressesLand(i, m'');
    }
  }

  /** The shipped colours are well formed: primary and secondary, which the
      canvas decodes, and the background, which it uses directly as a fill. */
  predicate ColoursParse(t: Theme) {
    HexColor.IsHexColor(t.primary) && HexColor.IsHexColor(t.secondary) && HexColor.IsHexColor(t.bg)
  }

  lemma HashColour(s: string)
    requires |s| == 7 && s[0] == '#'
    requires HexColor.IsHexDigit(s[1]) && HexColor.IsHexDigit(s[2]) && HexColor.IsHexDigit(s[3])
    requires HexColor.IsHexDigit(s[4]) && HexColor.IsHexDigit(s[5]) && HexColor.IsHexDigit(s[6])
    ensures HexColor.IsHexColor(s)
  {
    assert forall i | 0 <= i < 6 :: s[1..][i] == s[i + 1];
  }

  lemma ThemeColoursParse(t: Theme)
    requires |t.primary| == 7 && t.primary[0] == '#'
    requires forall i | 1 <= i < 7 :: HexColor.IsHexDigit(t.primary[i])
    requires |t.secondary| == 7 && t.secondary[0] == '#'
    requires forall i | 1 <= i < 7 :: HexColor.IsHexDigit(t.secondary[i])
    requires |t.bg| == 7 && t.bg[0] == '#'
    requires forall i | 1 <= i < 7 :: HexColor.IsHexDigit(t.bg[i])
    ensures ColoursParse(t)
  {
    HashColour(t.primary);
    HashColour(t.secondary);
    HashColour(t.bg);
  }

  /** Every shipped theme colour is a `#` and six hex digits, so `hexToRgb`
      never falls back to black for a shipped primary or secondary colour. */
  lemma ShippedColoursParse()
    ensures forall k | 0 <= k < |Themes| ::
              ColoursParse(Themes[k]) && HexColor.ParseColor(Themes[k].primary).Some?
              && HexColor.ParseColor(Themes[k].secondary).Some? && HexColor.ParseColor(Themes[k].bg).Some?
  {
    ThemeColoursParse(Themes[0]);
    ThemeColoursParse(Themes[1]);
    ThemeColoursParse(Themes[2]);
    ThemeColoursParse(Themes[3]);
    ThemeColoursParse(Themes[4]);
    forall k | 0 <= k < |Themes|
      ensures ColoursParse(Themes[k])
    {
      assert k == 0 || k == 1 || k == 2 || k == 3 || k == 4;
    }
  }
}

=== FILE: arith.dfy ===
/** Facts about real products and absolute values shared by the particle
    step and the star wrap. */
module RealArith {

  function Abs(r: real): real {
    if r < 0.0 then -r else r
  }

  lemma ProductPositive(a: real, b: real)
    requires 0.0 < a && 0.0 < b
    ensures 0.0 < a * b
  {
  }

  lemma ProductNonNegative(a: real, b: real)
    requires 0.0 <= a && 0.0 <= b
    ensures 0.0 <= a * b
  {
  }

  /** Multiplying by a positive number keeps order. */
  lemma MulMono(a: real, b: real, s: real)
    requires a <= b && 0.0 < s
    ensures a * s <= b * s
  {
    ProductNonNegative(b - a, s);
    assert (b - a) * s == b * s - a * s;
  }

  /** For non-negative reals, comparing squares is comparing the numbers. */
  lemma SquareMonotone(a: real, b: real)
    requires 0.0 <= a && 0.0 <= b
    ensures a < b <==> a * a < b * b
  {
    if a < b {
      ProductPositive(b - a, b + a);
      assert b * b - a * a == (b - a) * (b + a);
    } else {
      ProductNonNegative(a - b, a + b);
      assert a * a - b * b == (a - b) * (a + b);
    }
  }
}

=== FILE: canvas.dfy ===
/** The canvas's state between frames and the events that change it: the
    render loop's frame, the pointer handlers, a resize (which re-runs
    `initSimulation`) and the start of an epoch when the theme or the render
    mode changes. Rings and the pointer live in refs, so they survive both
    a resize and a new epoch. */
module Canvas {
  import opened Types
  import opened Optional
  import Epoch
  import Orbit
  import Shockwaves
  import Particles
  import StarField
  import Proximity

  datatype World = World(
    width: nat, height: nat, tick: nat,
    particles: seq<Particle>, stars: seq<Star>, bodies: seq<CelestialBody>,
    shockwaves: seq<Shockwave>, pointer: Pointer)

  /** What every frame relies on: every ring can fade and every body, the
      black hole included, has a positive radius. */
  predicate Valid(world: World) {
    && Shockwaves.WellFormed(world.shockwaves)
    && forall i | 0 <= i < |world.bodies| :: world.bodies[i].radius > 0.0
  }

  /** `celestials.find(c => c.type === 'BLACK_HOLE')`: the first black hole. */
  function FindBlackHole(bodies: seq<CelestialBody>): (r: Option<nat>)
    ensures r.Some? ==> r.value < |bodies| && bodies[r.value].kind == BlackHole
    ensures r.Some? ==> forall i | 0 <= i < r.value :: bodies[i].kind != BlackHole
    ensures r.None? <==> !Epoch.HasBlackHole(bodies)
  {
    if bodies == [] then None
    else if bodies[0].kind == BlackHole then Some(0)
    else match FindBlackHole(bodies[1..])
      case None => None
      case Some(i) => Some(i + 1)
  }

  /** The black hole as the particles feel it: the first black hole's point
      on its orbit circle around the viewport centre, shifted by a twentieth
      of the parallax, with the body's own radius as the horizon. */
  function HoleOf(bodies: seq<CelestialBody>, w: nat, h: nat, trig: Trig, parallax: Vec): (hole: Option<Particles.Hole>)
    requires forall i | 0 <= i < |bodies| :: bodies[i].radius > 0.0
    ensures hole.Some? <==> Epoch.HasBlackHole(bodies)
    ensures hole.Some? ==> hole.value.radius > 0.0
    ensures hole.Some? ==> hole.value.radius == bodies[FindBlackHole(bodies).value].radius
    ensures hole.Some? && bodies[FindBlackHole(bodies).value].orbitRadius == 0.0 ==>
              hole.value.x == w as real / 2.0 + parallax.x * 0.05 && hole.value.y == h as real / 2.0 + parallax.y * 0.05
    ensures hole.Some? ==>
              var bh := bodies[FindBlackHole(bodies).value];
              var dx := hole.value.x - (w as real / 2.0 + parallax.x * 0.05);
              var dy := hole.value.y - (h as real / 2.0 + parallax.y * 0.05);
              OnUnitCircle(trig, bh.angle) ==> dx * dx + dy * dy == bh.orbitRadius * bh.orbitRadius
  {
    match FindBlackHole(bodies)
    case None => None
    case Some(i) =>
      var bh := bodies[i];
      CircleOffset(trig, bh.angle, bh.orbitRadius);
      Some(Particles.Hole(
        w as real / 2.0 + trig.cos(bh.angle) * bh.orbitRadius + parallax.x * 0.05,
        h as real / 2.0 + trig.sin(bh.angle) * bh.orbitRadius + parallax.y * 0.05,
        bh.radius))
  }

  /** Cosine and sine agree at `angle`. */
  predicate OnUnitCircle(trig: Trig, angle: real) {
    trig.cos(angle) * trig.cos(angle) + trig.sin(angle) * trig.sin(angle) == 1.0
  }

  lemma CircleOffset(trig: Trig, angle: real, r: real)
    ensures OnUnitCircle(trig, angle) ==>
              (trig.cos(angle) * r) * (trig.cos(angle) * r) + (trig.sin(angle) * r) * (trig.sin(angle) * r) == r * r
  {
    var co := trig.cos(angle);
    var si := trig.sin(angle);
    assert (co * r) * (co * r) + (si * r) * (si * r) == (co * co + si * si) * (r * r);
  }

  /** The world after one call of `render`: the tick is counted, the bodies
      move and the rings age first, and only then are the particles stepped,
      against the moved black hole and the surviving rings. */
  function NextWorld(world: World, trig: Trig, forces: Particles.Forces, draws: seq<Particles.Respawn>): (next: World)
    requires Valid(world)
    requires |draws| == |world.particles|
    ensures Valid(next)
    ensures next.tick == world.tick + 1
    ensures next.width == world.width && next.height == world.height
    ensures next.stars == world.stars && next.pointer == world.pointer
    ensures next.bodies == Orbit.AdvanceAll(world.bodies, world.width, world.height, trig)
    ensures next.shockwaves == Shockwaves.Survivors(world.shockwaves)
    ensures next.particles ==
              Particles.StepAll(world.particles, world.width, world.height,
                                HoleOf(next.bodies, world.width, world.height, trig,
                                       StarField.Parallax(world.pointer, world.width, world.height)),
                                world.pointer, next.shockwaves, forces, draws)
  {
    var w := world.width;
    var h := world.height;
    var bodies := Orbit.AdvanceAll(world.bodies, w, h, trig);
    var waves := Shockwaves.Survivors(world.shockwaves);
    var hole := HoleOf(bodies, w, h, trig, StarField.Parallax(world.pointer, w, h));
    var ps := Particles.StepAll(world.particles, w, h, hole, world.pointer, waves, forces, draws);
    world.(tick := world.tick + 1, particles := ps, bodies := bodies, shockwaves := waves)
  }

  /** One call of `render`: the next world, with the rings aged by the
      source's backward splice loop, and the proximity graph over the
      stepped particles. */
  method Frame(world: World, mode: RenderMode, trig: Trig, forces: Particles.Forces, draws: seq<Particles.Respawn>)
    returns (next: World, edges: seq<(nat, nat)>, triangles: seq<(nat, nat, nat)>)
    requires Valid(world)
    requires |draws| == |world.particles|
    ensures next == NextWorld(world, trig, forces, draws)
    ensures |next.particles| == |world.particles|
    ensures forall i | 0 <= i < |next.particles| ::
              next.particles[i].size == world.particles[i].size && next.particles[i].life == world.particles[i].life
    ensures mode == Particles ==> edges == [] && triangles == []
    ensures mode != Particles ==>
              forall i: nat, j: nat :: (i, j) in edges <==> Proximity.IsEdge(next.particles, i, j)
    ensures forall i: nat, j: nat, k: nat :: (i, j, k) in triangles <==>
              mode == Mesh && Proximity.IsTriangle(next.particles, i, j, k)
  {
    var w := world.width;
    var h := world.height;
    var parallax := StarField.Parallax(world.pointer, w, h);
    var bodies := Orbit.AdvanceAll(world.bodies, w, h, trig);
    var waves := Shockwaves.Age(world.shockwaves);
    var hole := HoleOf(bodies, w, h, trig, parallax);
    var ps := Particles.StepAll(world.particles, w, h, hole, world.pointer, waves, forces, draws);
    next := world.(tick := world.tick + 1, particles := ps, bodies := bodies, shockwaves := waves);
    edges, triangles := Proximity.Graph(ps, mode);
  }

  /** `handleMouseMove`. */
  function PointerMove(world: World, x: real, y: real): (r: World)
    ensures r.pointer.active && r.pointer.x == x && r.pointer.y == y
    ensures r.(pointer := world.pointer) == world
  {
    world.(pointer := Pointer(x, y, true))
  }

  /** `handleMouseLeave`: the pointer goes inactive and keeps its last position. */
  function PointerLeave(world: World): (r: World)
    ensures !r.pointer.active
    ensures r.pointer.x == world.pointer.x && r.pointer.y == world.pointer.y
    ensures r.(pointer := world.pointer) == world
  {
    world.(pointer := world.pointer.(active := false))
  }

  /** `handleMouseDown`: one ring at the press point; nothing else changes. */
  function PointerDown(world: World, x: real, y: real, now: int): (r: World)
    requires Valid(world)
    ensures Valid(r)
    ensures |r.shockwaves| == |world.shockwaves| + 1 && r.shockwaves[..|world.shockwaves|] == world.shockwaves
    ensures r.(shockwaves := world.shockwaves) == world
  {
    world.(shockwaves := Shockwaves.Press(world.shockwaves, x, y, now))
  }

  /** `handleResize`: `initSimulation` on the new viewport. The particles,
      stars and bodies are rebuilt; the tick, rings and pointer carry over. */
  function Resize(world: World, theme: Theme, w: nat, h: nat, rand: nat -> Unit): (r: World)
    requires Valid(world)
    ensures Valid(r)
    ensures r.width == w && r.height == h
    ensures r.tick == world.tick && r.shockwaves == world.shockwaves && r.pointer == world.pointer
    ensures |r.particles| == Epoch.ParticleCount(w, h) && |r.stars| == Epoch.StarCount
    ensures forall i | 0 <= i < |r.particles| :: Epoch.FreshParticle(r.particles[i], w, h)
    ensures forall i | 0 <= i < |r.stars| :: Epoch.FreshStar(r.stars[i], w, h)
    ensures r.bodies == Epoch.InitBodies(theme, w, h)
    ensures Epoch.HasBlackHole(r.bodies) <==> theme.name == "DEEP_SPACE"
  {
    var pop := Epoch.Init(theme, w, h, rand);
    world.(width := w, height := h, particles := pop.particles, stars := pop.stars, bodies := pop.bodies)
  }

  /** The effect body run when the theme or render mode changes: a fresh
      tick counter and a fresh simulation, with the refs' rings and pointer. */
  function Start(theme: Theme, w: nat, h: nat, rand: nat -> Unit, shockwaves: seq<Shockwave>, pointer: Pointer): (r: World)
    requires Shockwaves.WellFormed(shockwaves)
    ensures Valid(r)
    ensures r.width == w && r.height == h
    ensures r.tick == 0 && r.shockwaves == shockwaves && r.pointer == pointer
    ensures |r.particles| == Epoch.ParticleCount(w, h) && |r.stars| == Epoch.StarCount
    ensures forall i | 0 <= i < |r.particles| :: Epoch.FreshParticle(r.particles[i], w, h)
    ensures forall i | 0 <= i < |r.stars| :: Epoch.FreshStar(r.stars[i], w, h)
    ensures r.bodies == Epoch.InitBodies(theme, w, h)
    ensures Epoch.HasBlackHole(r.bodies) <==> theme.name == "DEEP_SPACE"
  {
    var pop := Epoch.Init(theme, w, h, rand);
    World(w, h, 0, pop.particles, pop.stars, pop.bodies, shockwaves, pointer)
  }

  /** `initSimulation` rebuilds the populations from empty: what the world
      held before a resize makes no difference to them. */
  lemma ResizeForgetsPast(a: World, b: World, theme: Theme, w: nat, h: nat, rand: nat -> Unit)
    requires Valid(a) && Valid(b)
    ensures var ra, rb := Resize(a, theme, w, h, rand), Resize(b, theme, w, h, rand);
            ra.particles == rb.particles && ra.stars == rb.stars && ra.bodies == rb.bodies
  {
  }

  /** Leaving cancels any earlier move's activation but not its position, and
      once the pointer has left the parallax is zero again. */
  lemma MoveThenLeave(world: World, x: real, y: real)
    ensures PointerLeave(PointerMove(world, x, y)).pointer == Pointer(x, y, false)
    ensures PointerLeave(PointerLeave(world)) == PointerLeave(world)
    ensures StarField.Parallax(PointerLeave(world).pointer, world.width, world.height) == Vec(0.0, 0.0)
  {
  }

  /** In a world with no black hole, no active pointer and no rings, a frame
      moves every particle by the free step alone. */
  lemma QuietFrame(world: World, trig: Trig, forces: Particles.Forces, draws: seq<Particles.Respawn>)
    requires Valid(world)
    requires |draws| == |world.particles|
    requires !Epoch.HasBlackHole(world.bodies) && !world.pointer.active && world.shockwaves == []
    ensures var next := NextWorld(world, trig, forces, draws);
            forall i | 0 <= i < |world.particles| ::
              next.particles[i] == Particles.FreeStep(world.particles[i], world.width, world.height)
  {
    var w := world.width;
    var h := world.height;
    var next := NextWorld(world, trig, forces, draws);
    assert forall i | 0 <= i < |next.bodies| :: next.bodies[i].kind == world.bodies[i].kind;
    assert !Epoch.HasBlackHole(next.bodies);
    forall i | 0 <= i < |world.particles|
      ensures Particles.Step(world.particles[i], w, h, None, world.pointer, [], forces, draws[i])
              == Particles.FreeStep(world.particles[i], w, h)
    {
      Particles.FreeStepIsStep(world.particles[i], w, h, world.pointer, forces, draws[i]);
    }
  }
}

=== FILE: epoch.dfy ===
/** `initSimulation` of the canvas: one epoch's particles, stars and bodies,
    rebuilt from nothing for a viewport and a theme.

    `Math.random()` is the stream `rand`: the k-th call of the epoch reads
    `rand(k)`. Each particle makes six calls and each star five, in the order
    the source evaluates its object literals. */
module Epoch {
  import opened Types

  const AreaPerParticle: nat := 9000
  const MaxParticles: nat := 180
  const StarCount: nat := 150
  const DrawsPerParticle: nat := 6
  const DrawsPerStar: nat := 5

  /** `Math.PI` as the decimal it prints as. */
  const Pi: real := 3.141592653589793

  function MinReal(a: real, b: real): real {
    if a <= b then a else b
  }

  /** The bound the particle loop compares its counter with. */
  function ParticleBound(w: nat, h: nat): real {
    MinReal((w * h) as real / AreaPerParticle as real, MaxParticles as real)
  }

  /** How many times `for (i = 0; i < Math.min(w*h/9000, 180); i++)` runs:
      the least `n` that is not below the bound. */
  function ParticleCount(w: nat, h: nat): (n: nat)
    ensures n <= MaxParticles
    ensures n as real >= ParticleBound(w, h)
    ensures n == 0 || ((n - 1) as real) < ParticleBound(w, h)
  {
    var area := w * h;
    if area >= MaxParticles * AreaPerParticle then MaxParticles
    else
      var n := (area + AreaPerParticle - 1) / AreaPerParticle;
      assert n * 9000 >= area && (n - 1) * 9000 < area;
      n
  }

  /** The k-th particle of the loop body, reading draws `base` to `base + 5`. */
  function SpawnParticle(w: nat, h: nat, rand: nat -> Unit, base: nat): Particle {
    Particle(
      rand(base) * w as real,
      rand(base + 1) * h as real,
      (rand(base + 2) - 0.5) * 0.8,
      (rand(base + 3) - 0.5) * 0.8,
      rand(base + 4) * 2.0 + 1.0,
      rand(base + 5) * 100.0)
  }

  function SpawnStar(w: nat, h: nat, rand: nat -> Unit, base: nat): Star {
    Star(
      rand(base) * w as real,
      rand(base + 1) * h as real,
      rand(base + 2) * 0.8 + 0.1,
      rand(base + 3) * 1.5,
      rand(base + 4))
  }

  /** A coordinate drawn as `Math.random() * extent`. */
  predicate OnScreen(v: real, extent: nat) {
    0.0 <= v && (extent == 0 ==> v == 0.0) && (extent > 0 ==> v < extent as real)
  }

  /** Where and how fast a freshly spawned particle may be. */
  predicate FreshParticle(p: Particle, w: nat, h: nat) {
    && OnScreen(p.x, w) && OnScreen(p.y, h)
    && -0.4 <= p.vx < 0.4 && -0.4 <= p.vy < 0.4
    && 1.0 <= p.size < 3.0 && 0.0 <= p.life < 100.0
  }

  predicate FreshStar(s: Star, w: nat, h: nat) {
    && OnScreen(s.x, w) && OnScreen(s.y, h)
    && 0.1 <= s.z < 0.9
    && 0.0 <= s.size < 1.5 && 0.0 <= s.brightness < 1.0
  }

  lemma ScaleOnScreen(u: Unit, extent: nat)
    ensures OnScreen(u * extent as real, extent)
  {
    if extent > 0 {
      assert u * extent as real < 1.0 * extent as real;
    }
  }

  lemma SpawnedParticleFresh(w: nat, h: nat, rand: nat -> Unit, base: nat)
    ensures FreshParticle(SpawnParticle(w, h, rand, base), w, h)
  {
    ScaleOnScreen(rand(base), w);
    ScaleOnScreen(rand(base + 1), h);
  }

  lemma SpawnedStarFresh(w: nat, h: nat, rand: nat -> Unit, base: nat)
    ensures FreshStar(SpawnStar(w, h, rand, base), w, h)
  {
    ScaleOnScreen(rand(base), w);
    ScaleOnScreen(rand(base + 1), h);
  }

  function InitParticles(w: nat, h: nat, rand: nat -> Unit): (ps: seq<Particle>)
    ensures |ps| == ParticleCount(w, h)
    ensures forall i | 0 <= i < |ps| :: FreshParticle(ps[i], w, h)
  {
    var n := ParticleCount(w, h);
    var ps := seq(n, i requires 0 <= i < n => SpawnParticle(w, h, rand, DrawsPerParticle * i));
    assert forall i | 0 <= i < n :: FreshParticle(ps[i], w, h) by {
      forall i | 0 <= i < n ensures FreshParticle(ps[i], w, h) {
        SpawnedParticleFresh(w, h, rand, DrawsPerParticle * i);
      }
    }
    ps
  }

  /** The stars read the draws that follow the particles' `6 * first` draws. */
  function InitStars(w: nat, h: nat, rand: nat -> Unit, first: nat): (ss: seq<Star>)
    ensures |ss| == StarCount
    ensures forall i | 0 <= i < |ss| :: FreshStar(ss[i], w, h)
  {
    var ss := seq(StarCount, i requires 0 <= i < StarCount =>
      SpawnStar(w, h, rand, DrawsPerParticle * first + DrawsPerStar * i));
    assert forall i | 0 <= i < StarCount :: FreshStar(ss[i], w, h) by {
      forall i | 0 <= i < StarCount ensures FreshStar(ss[i], w, h) {
        SpawnedStarFresh(w, h, rand, DrawsPerParticle * first + DrawsPerStar * i);
      }
    }
    ss
  }

  predicate HasBlackHole(bodies: seq<CelestialBody>) {
    exists i | 0 <= i < |bodies| :: bodies[i].kind == BlackHole
  }

  /** The bodies of a theme: a still black hole for DEEP_SPACE, an orbiting sun
      for CRIMSON_TIDE and a planet with a moon for every other name. */
  function InitBodies(theme: Theme, w: nat, h: nat): (bodies: seq<CelestialBody>)
    ensures theme.name == "DEEP_SPACE" ==>
              |bodies| == 1 && bodies[0].kind == BlackHole && bodies[0].orbitRadius == 0.0
              && bodies[0].x == w as real / 2.0 && bodies[0].y == h as real / 2.0
    ensures theme.name == "CRIMSON_TIDE" ==> |bodies| == 1 && bodies[0].kind == Sun
    ensures theme.name != "DEEP_SPACE" && theme.name != "CRIMSON_TIDE" ==>
              |bodies| == 2 && bodies[0].kind == Planet && bodies[1].kind == Planet
    ensures HasBlackHole(bodies) <==> theme.name == "DEEP_SPACE"
    ensures forall i | 0 <= i < |bodies| :: bodies[i].radius > 0.0
  {
    var cx := w as real / 2.0;
    var cy := h as real / 2.0;
    if theme.name == "DEEP_SPACE" then
      [CelestialBody(BlackHole, cx, cy, 60.0, "#000000", 0.0, 0.0, 0.0)]
    else if theme.name == "CRIMSON_TIDE" then
      [CelestialBody(Sun, cx, cy, 120.0, "#ef4444", 0.002, 0.0, 20.0)]
    else
      [CelestialBody(Planet, cx, cy, 80.0, theme.primary, 0.005, 0.0, 100.0),
       CelestialBody(Planet, cx, cy, 20.0, theme.secondary, 0.02, Pi, 220.0)]
  }

  /** The three populations of one epoch. */
  datatype Populations = Populations(particles: seq<Particle>, stars: seq<Star>, bodies: seq<CelestialBody>)

  /** `initSimulation` for a `w` by `h` viewport. */
  function Init(theme: Theme, w: nat, h: nat, rand: nat -> Unit): (pop: Populations)
    ensures |pop.particles| == ParticleCount(w, h) <= MaxParticles
    ensures |pop.stars| == StarCount
    ensures forall i | 0 <= i < |pop.particles| :: FreshParticle(pop.particles[i], w, h)
    ensures forall i | 0 <= i < |pop.stars| :: FreshStar(pop.stars[i], w, h)
    ensures pop.bodies == InitBodies(theme, w, h)
    ensures HasBlackHole(pop.bodies) <==> theme.name == "DEEP_SPACE"
  {
    var ps := InitParticles(w, h, rand);
    Populations(ps, InitStars(w, h, rand, |ps|), InitBodies(theme, w, h))
  }

  /** An 800 by 600 viewport gets 54 particles; any viewport of at least
      1,620,000 pixels gets the cap of 180. */
  lemma SampleCounts()
    ensures ParticleCount(800, 600) == 54
    ensures ParticleCount(1600, 1200) == 180
    ensures ParticleCount(0, 600) == 0
  {
  }
}

=== FILE: hex_color.dfy ===
/** `hexToRgb` of the canvas: an optional `#` and exactly six hexadecimal
    digits, in either case, decode to three bytes; anything else is black. */
module HexColor {
  import opened Optional

  type Byte = n: nat | n < 256

  datatype Rgb = Rgb(r: Byte, g: Byte, b: Byte)

  const Black: Rgb := Rgb(0, 0, 0)

  /** The class `[a-f\d]` under the `i` flag: ASCII digits and both cases of a-f. */
  predicate IsHexDigit(c: char) {
    '0' <= c <= '9' || 'a' <= c <= 'f' || 'A' <= c <= 'F'
  }

  predicate AllHex(s: string) {
    forall i | 0 <= i < |s| :: IsHexDigit(s[i])
  }

  /** The language of `/^#?([a-f\d]{2})([a-f\d]{2})([a-f\d]{2})$/i`. */
  predicate IsHexColor(s: string) {
    || (|s| == 6 && AllHex(s))
    || (|s| == 7 && s[0] == '#' && AllHex(s[1..]))
  }

  function DigitValue(c: char): (v: nat)
    requires IsHexDigit(c)
    ensures v < 16
  {
    if '0' <= c <= '9' then c as int - '0' as int
    else if 'a' <= c <= 'f' then c as int - 'a' as int + 10
    else c as int - 'A' as int + 10
  }

  function Pow16(n: nat): (p: nat)
    ensures p >= 1
  {
    if n == 0 then 1 else 16 * Pow16(n - 1)
  }

  /** `parseInt(ds, 16)` on the digit pairs the regular expression has
      already vetted: digits are accumulated left to right. On other strings
      `parseInt` reads the longest hexadecimal prefix after optional
      whitespace, a sign and `0x`; the canvas never hands it one, and this
      function is None there rather than modelling that. */
  function ScanHex(ds: string): (r: Option<nat>)
    ensures r.Some? <==> AllHex(ds)
    ensures r.Some? ==> r.value < Pow16(|ds|)
  {
    if ds == [] then Some(0)
    else
      var last := ds[|ds| - 1];
      match ScanHex(ds[..|ds| - 1])
      case None => None
      case Some(high) =>
        if IsHexDigit(last) then Some(16 * high + DigitValue(last)) else None
  }

  /** Decodes a colour when `s` matches the pattern; the source's `exec`
      returning null is None here. */
  function ParseColor(s: string): (r: Option<Rgb>)
    ensures r.Some? <==> IsHexColor(s)
  {
    var ds := if |s| > 0 && s[0] == '#' then s[1..] else s;
    if |ds| != 6 then None
    else
      match (ScanHex(ds[0..2]), ScanHex(ds[2..4]), ScanHex(ds[4..6]))
      case (Some(r), Some(g), Some(b)) =>
        assert AllHex(ds) by {
          assert ds == ds[0..2] + ds[2..4] + ds[4..6];
        }
        Some(Rgb(r, g, b))
      case _ => None
  }

  /** `hexToRgb`: every string that does not match the pattern falls back to black. */
  function HexToRgb(s: string): (c: Rgb)
    ensures !IsHexColor(s) ==> c == Black
    ensures IsHexColor(s) ==> Some(c) == ParseColor(s)
  {
    match ParseColor(s)
    case Some(c) => c
    case None => Black
  }

  // ---------------------------------------------------------------------------
  // The encoder that `hexToRgb` inverts: two hexadecimal digits per channel.

  function HexChar(d: nat, upper: bool): (c: char)
    requires d < 16
    ensures IsHexDigit(c) && DigitValue(c) == d
  {
    if d < 10 then ('0' as int + d) as char
    else if upper then ('A' as int + d - 10) as char
    else ('a' as int + d - 10) as char
  }

  function EncodeByte(b: Byte, upper: bool): string {
    [HexChar(b / 16, upper), HexChar(b % 16, upper)]
  }

  /** `#rrggbb` (or without the `#`), in lower or upper case. */
  function Encode(c: Rgb, hash: bool, upper: bool): string {
    (if hash then "#" else "") + EncodeByte(c.r, upper) + EncodeByte(c.g, upper) + EncodeByte(c.b, upper)
  }

  function LowerHex(c: char): char {
    if 'A' <= c <= 'F' then (c as int + 32) as char else c
  }

  /** Two hexadecimal digits scan to the byte they spell. */
  lemma ScanPair(a: char, b: char)
    requires IsHexDigit(a) && IsHexDigit(b)
    ensures ScanHex([a, b]) == Some(16 * DigitValue(a) + DigitValue(b))
  {
    assert [a, b][..1] == [a];
    assert [a][..0] == [];
  }

  lemma ScanEncodedByte(b: Byte, upper: bool)
    ensures ScanHex(EncodeByte(b, upper)) == Some(b)
  {
    ScanPair(HexChar(b / 16, upper), HexChar(b % 16, upper));
  }

  /** Round trip: decoding an encoded colour, with or without `#` and in
      either case, gives the colour back. */
  lemma DecodeEncode(c: Rgb, hash: bool, upper: bool)
    ensures ParseColor(Encode(c, hash, upper)) == Some(c)
    ensures HexToRgb(Encode(c, hash, upper)) == c
  {
    var s := Encode(c, hash, upper);
    var ds := EncodeByte(c.r, upper) + EncodeByte(c.g, upper) + EncodeByte(c.b, upper);
    assert s == (if hash then "#" else "") + ds;
    var stripped := if |s| > 0 && s[0] == '#' then s[1..] else s;
    assert stripped == ds;
    assert ds[0..2] == EncodeByte(c.r, upper);
    assert ds[2..4] == EncodeByte(c.g, upper);
    assert ds[4..6] == EncodeByte(c.b, upper);
    ScanEncodedByte(c.r, upper);
    ScanEncodedByte(c.g, upper);
    ScanEncodedByte(c.b, upper);
  }

  /** The six digits after the optional `#`. */
  function Digits(s: string): (ds: string)
    requires IsHexColor(s)
    ensures |ds| == 6 && AllHex(ds)
  {
    if |s| == 7 then s[1..] else s
  }

  function Channel(hi: char, lo: char): Byte
    requires IsHexDigit(hi) && IsHexDigit(lo)
  {
    16 * DigitValue(hi) + DigitValue(lo)
  }

  /** The colour six hexadecimal digits spell, two per channel. */
  function DigitsColour(ds: string): Rgb
    requires |ds| == 6 && AllHex(ds)
  {
    Rgb(Channel(ds[0], ds[1]), Channel(ds[2], ds[3]), Channel(ds[4], ds[5]))
  }

  /** A matching string decodes channel by channel, each from its two digits. */
  lemma ParseDigits(s: string)
    requires IsHexColor(s)
    ensures HexToRgb(s) == DigitsColour(Digits(s))
  {
    var ds := Digits(s);
    assert ds == (if |s| > 0 && s[0] == '#' then s[1..] else s);
    assert ds[0..2] == [ds[0], ds[1]];
    assert ds[2..4] == [ds[2], ds[3]];
    assert ds[4..6] == [ds[4], ds[5]];
    ScanPair(ds[0], ds[1]);
    ScanPair(ds[2], ds[3]);
    ScanPair(ds[4], ds[5]);
  }

  lemma EncodePair(a: char, b: char)
    requires IsHexDigit(a) && IsHexDigit(b)
    ensures EncodeByte(Channel(a, b), false) == [LowerHex(a), LowerHex(b)]
  {
    var v := Channel(a, b);
    assert v / 16 == DigitValue(a) && v % 16 == DigitValue(b);
  }

  lemma EncodeChannels(a: char, b: char, c: char, d: char, e: char, f: char)
    requires IsHexDigit(a) && IsHexDigit(b) && IsHexDigit(c) && IsHexDigit(d) && IsHexDigit(e) && IsHexDigit(f)
    ensures Encode(Rgb(Channel(a, b), Channel(c, d), Channel(e, f)), false, false)
            == [LowerHex(a), LowerHex(b), LowerHex(c), LowerHex(d), LowerHex(e), LowerHex(f)]
  {
    var col := Rgb(Channel(a, b), Channel(c, d), Channel(e, f));
    EncodePair(a, b);
    EncodePair(c, d);
    EncodePair(e, f);
    assert Encode(col, false, false) == EncodeByte(col.r, false) + EncodeByte(col.g, false) + EncodeByte(col.b, false);
  }

  lemma EncodeDigits(ds: string)
    requires |ds| == 6 && AllHex(ds)
    ensures Encode(DigitsColour(ds), false, false) == seq(6, i requires 0 <= i < 6 => LowerHex(ds[i]))
  {
    EncodeChannels(ds[0], ds[1], ds[2], ds[3], ds[4], ds[5]);
  }

  /** The other direction: a decoded colour re-encodes (lower case, no `#`)
      to the six digits of the input, lower-cased. So decoding is injective
      up to letter case and the `#`. */
  lemma EncodeDecode(s: string)
    requires IsHexColor(s)
    ensures Encode(HexToRgb(s), false, false) == seq(6, i requires 0 <= i < 6 => LowerHex(Digits(s)[i]))
  {
    ParseDigits(s);
    EncodeDigits(Digits(s));
  }

  /** Three-digit shorthand, the empty string, eight-digit colours and six
      characters that are not all hexadecimal digits fall back to black. */
  lemma RejectedForms()
    ensures HexToRgb("#fff") == Black
    ensures HexToRgb("fff") == Black
    ensures HexToRgb("") == Black
    ensures HexToRgb("#ffffff80") == Black
    ensures HexToRgb("#gggggg") == Black
    ensures HexToRgb("12345z") == Black
  {
    assert !IsHexColor("#gggggg") by {
      assert !IsHexDigit("#gggggg"[1..][0]);
    }
    assert !IsHexColor("12345z") by {
      assert !IsHexDigit("12345z"[5]);
    }
  }

  /** Sample colours decode as written: the sun's colour, a six-digit black
      without `#`, and upper-case digits. */
  lemma SampleColours()
    ensures HexToRgb("#ef4444") == Rgb(239, 68, 68)
    ensures HexToRgb("000000") == Black
    ensures HexToRgb("#D946EF") == Rgb(217, 70, 239)
  {
    SampleWithHash("#ef4444", 239, 68, 68);
    SampleWithHash("#D946EF", 217, 70, 239);
    assert IsHexColor("000000");
    ParseDigits("000000");
  }

  lemma SampleWithHash(s: string, r: Byte, g: Byte, b: Byte)
    requires |s| == 7 && s[0] == '#' && AllHex(s[1..])
    requires Channel(s[1], s[2]) == r && Channel(s[3], s[4]) == g && Channel(s[5], s[6]) == b
    ensures HexToRgb(s) == Rgb(r, g, b)
  {
    ParseDigits(s);
  }
}

=== FILE: members.dfy ===
/** The members directory: the search box filters members whose name or
    role contains the search term, ignoring case; each id is shown padded
    to four digits; an empty result shows a "no members found" note. */
module Members {
  import Seqs

  datatype MemberStatus = Active | Inactive | Pending

  datatype Member = Member(
    id: string, name: string, role: string, joinedDate: string, status: MemberStatus, avatar: string)

  // ---------------------------------------------------------------------------
  // Case folding and substring search

  predicate IsUpper(c: char) {
    'A' <= c <= 'Z'
  }

  /** `toLowerCase` on one ASCII character. */
  function LowerChar(c: char): (d: char)
    ensures !IsUpper(d)
    ensures !IsUpper(c) ==> d == c
  {
    if IsUpper(c) then (c as int + 32) as char else c
  }

  function UpperChar(c: char): (d: char)
    ensures !('a' <= d <= 'z')
  {
    if 'a' <= c <= 'z' then (c as int - 32) as char else c
  }

  function Lower(s: string): (r: string)
    ensures |r| == |s|
    ensures forall i | 0 <= i < |s| :: r[i] == LowerChar(s[i])
  {
    seq(|s|, i requires 0 <= i < |s| => LowerChar(s[i]))
  }

  function Upper(s: string): (r: string)
    ensures |r| == |s|
    ensures forall i | 0 <= i < |s| :: r[i] == UpperChar(s[i])
  {
    seq(|s|, i requires 0 <= i < |s| => UpperChar(s[i]))
  }

  /** Lower-casing twice is lower-casing once, and lower-casing forgets an
      earlier upper-casing. */
  lemma LowerAbsorbs(s: string)
    ensures Lower(Lower(s)) == Lower(s)
    ensures Lower(Upper(s)) == Lower(s)
  {
    assert forall i | 0 <= i < |s| :: LowerChar(UpperChar(s[i])) == LowerChar(s[i]);
  }

  /** `t` occurs in `s` starting at offset `k`. */
  predicate OccursAt(s: string, t: string, k: nat)
    requires k + |t| <= |s|
  {
    s[k..k + |t|] == t
  }

  /** `s.includes(t)`: `t` occurs in `s` at some offset. */
  predicate Contains(s: string, t: string) {
    exists k: nat | k + |t| <= |s| :: OccursAt(s, t, k)
  }

  /** The search `includes` performs: try every offset from the left. */
  method Includes(s: string, t: string) returns (found: bool)
    ensures found <==> Contains(s, t)
  {
    if |t| > |s| {
      return false;
    }
    var k := 0;
    while k <= |s| - |t|
      invariant 0 <= k <= |s| - |t| + 1
      invariant forall j: nat | j < k :: !OccursAt(s, t, j)
    {
      if s[k..k + |t|] == t {
        assert OccursAt(s, t, k);
        return true;
      }
      k := k + 1;
    }
    return false;
  }

  // ---------------------------------------------------------------------------
  // The filter

  /** The search term matches a member's name or role, ignoring case. */
  predicate Matches(m: Member, term: string) {
    Contains(Lower(m.name), Lower(term)) || Contains(Lower(m.role), Lower(term))
  }

  /** `filteredMembers`. */
  function Search(members: seq<Member>, term: string): (r: seq<Member>)
    ensures Seqs.IsSubseq(r, members)
    ensures forall i | 0 <= i < |members| :: members[i] in r <==> Matches(members[i], term)
    ensures forall i | 0 <= i < |members| ::
              multiset(r)[members[i]] == if Matches(members[i], term) then multiset(members)[members[i]] else 0
  {
    var keep := (m: Member) => Matches(m, term);
    forall i | 0 <= i < |members|
      ensures multiset(Seqs.Filter(keep, members))[members[i]]
              == if Matches(members[i], term) then multiset(members)[members[i]] else 0
    {
      Seqs.FilterCounts(keep, members, members[i]);
    }
    Seqs.FilterIsSubseq(keep, members);
    Seqs.Filter(keep, members)
  }

  /** Every member contains the empty term, so an empty search box lists
      everyone, in order. */
  lemma EmptyTermKeepsAll(members: seq<Member>)
    ensures Search(members, "") == members
  {
    var keep := (m: Member) => Matches(m, "");
    forall i | 0 <= i < |members|
      ensures keep(members[i])
    {
      assert OccursAt(Lower(members[i].name), Lower(""), 0);
    }
    Seqs.FilterKeepsAll(keep, members);
  }

  /** Terms that agree after lower-casing select the same members; in
      particular the upper-cased term does. */
  lemma CaseInsensitive(members: seq<Member>, t1: string, t2: string)
    requires Lower(t1) == Lower(t2)
    ensures Search(members, t1) == Search(members, t2)
    ensures Search(members, Upper(t1)) == Search(members, t1)
  {
    LowerAbsorbs(t1);
    Seqs.FilterCongruent((m: Member) => Matches(m, t1), (m: Member) => Matches(m, t2), members);
    Seqs.FilterCongruent((m: Member) => Matches(m, Upper(t1)), (m: Member) => Matches(m, t1), members);
  }

  /** The "No members found matching your search." note. */
  function ShowsEmptyNote(members: seq<Member>, term: string): (shown: bool)
    ensures shown <==> forall i | 0 <= i < |members| :: !Matches(members[i], term)
  {
    var r := Search(members, term);
    assert r != [] ==> r[0] in r && r[0] in members;
    |r| == 0
  }

  // ---------------------------------------------------------------------------
  // The id label

  function Zeros(n: nat): (z: string)
    ensures |z| == n && forall i | 0 <= i < n :: z[i] == '0'
  {
    seq(n, i => '0')
  }

  /** `id.padStart(4, '0')`. */
  function PadId(id: string): (r: string)
    ensures |r| == if |id| >= 4 then |id| else 4
    ensures r[|r| - |id|..] == id
    ensures forall i | 0 <= i < |r| - |id| :: r[i] == '0'
    ensures |id| >= 4 ==> r == id
  {
    if |id| >= 4 then id else Zeros(4 - |id|) + id
  }

  /** Leading zeros removed. */
  function TrimZeros(s: string): (r: string)
    ensures |r| <= |s|
  {
    if s != [] && s[0] == '0' then TrimZeros(s[1..]) else s
  }

  lemma {:induction false} TrimPadding(n: nat, id: string)
    requires id == [] || id[0] != '0'
    ensures TrimZeros(Zeros(n) + id) == id
    decreases n
  {
    if n > 0 {
      assert (Zeros(n) + id)[1..] == Zeros(n - 1) + id;
      TrimPadding(n - 1, id);
    }
  }

  /** Padding only adds zeros: an id without a leading zero is recovered by
      trimming them. */
  lemma PadIdRoundTrip(id: string)
    requires id != [] && id[0] != '0'
    ensures TrimZeros(PadId(id)) == id
  {
    if |id| >= 4 {
      TrimPadding(0, id);
      assert Zeros(0) + id == id;
    } else {
      TrimPadding(4 - |id|, id);
    }
  }

  lemma SampleIds()
    ensures PadId("1") == "0001"
    ensures PadId("12345") == "12345"
  {
  }
}

=== FILE: optional.dfy ===
/** A value that may be absent: a failed regular-expression match, a world
    with no black hole, a coordinate that is NaN in the source. */
module Optional {

  datatype Option<T> = None | Some(value: T)
}

=== FILE: orbit.dfy ===
/** The orbit update at the head of `drawCelestial`: a body on an orbit
    advances its angle by its orbit speed and is placed on the circle of its
    orbit radius around the viewport centre; a body with no orbit stays put. */
module Orbit {
  import opened Types

  /** One frame's update of one body. */
  function Advance(c: CelestialBody, w: nat, h: nat, trig: Trig): (r: CelestialBody)
    ensures r.kind == c.kind && r.radius == c.radius && r.color == c.color
    ensures r.orbitSpeed == c.orbitSpeed && r.orbitRadius == c.orbitRadius
    ensures c.orbitRadius > 0.0 ==> r.angle == c.angle + c.orbitSpeed
    ensures c.orbitRadius <= 0.0 ==> r == c
  {
    if c.orbitRadius > 0.0 then
      var angle := c.angle + c.orbitSpeed;
      c.(angle := angle,
         x := w as real / 2.0 + trig.cos(angle) * c.orbitRadius,
         y := h as real / 2.0 + trig.sin(angle) * c.orbitRadius)
    else c
  }

  /** `celestials.forEach(drawCelestial)`: every body, in order. */
  function AdvanceAll(bodies: seq<CelestialBody>, w: nat, h: nat, trig: Trig): (r: seq<CelestialBody>)
    ensures |r| == |bodies|
    ensures forall i | 0 <= i < |r| :: r[i] == Advance(bodies[i], w, h, trig)
  {
    seq(|bodies|, i requires 0 <= i < |bodies| => Advance(bodies[i], w, h, trig))
  }

  /** When cosine and sine are consistent at the new angle, an orbiting body
      lies on its orbit circle around the viewport centre. */
  lemma OnOrbitCircle(c: CelestialBody, w: nat, h: nat, trig: Trig)
    requires c.orbitRadius > 0.0
    requires var a := c.angle + c.orbitSpeed;
             trig.cos(a) * trig.cos(a) + trig.sin(a) * trig.sin(a) == 1.0
    ensures var r := Advance(c, w, h, trig);
            var dx := r.x - w as real / 2.0;
            var dy := r.y - h as real / 2.0;
            dx * dx + dy * dy == c.orbitRadius * c.orbitRadius
  {
    var a := c.angle + c.orbitSpeed;
    var R := c.orbitRadius;
    var co := trig.cos(a);
    var si := trig.sin(a);
    calc {
      (co * R) * (co * R) + (si * R) * (si * R);
      (co * co + si * si) * (R * R);
      R * R;
    }
  }

  /** `n` frames of the update. */
  function AdvanceFrames(c: CelestialBody, w: nat, h: nat, trig: Trig, n: nat): CelestialBody
    decreases n
  {
    if n == 0 then c else AdvanceFrames(Advance(c, w, h, trig), w, h, trig, n - 1)
  }

  /** After `n` frames an orbiting body's angle has advanced by exactly
      `n` times its speed; a body without an orbit, such as the black hole,
      has not changed at all. */
  lemma {:induction false} AngleAfterFrames(c: CelestialBody, w: nat, h: nat, trig: Trig, n: nat)
    ensures var r := AdvanceFrames(c, w, h, trig, n);
            && r.orbitRadius == c.orbitRadius && r.kind == c.kind
            && (c.orbitRadius > 0.0 ==> r.angle == c.angle + (n as real) * c.orbitSpeed)
            && (c.orbitRadius <= 0.0 ==> r == c)
    decreases n
  {
    if n > 0 {
      var c' := Advance(c, w, h, trig);
      AngleAfterFrames(c', w, h, trig, n - 1);
      if c.orbitRadius > 0.0 {
        OneMoreTurn(c.angle, c.orbitSpeed, n);
      }
    }
  }

  lemma OneMoreTurn(angle: real, speed: real, n: nat)
    requires n > 0
    ensures (angle + speed) + ((n - 1) as real) * speed == angle + (n as real) * speed
  {
  }
}

=== FILE: particles.dfy ===
/** The per-particle step of the render loop: Euler integration, wall bounce
    by sign flip, the black hole's capture and pull, the pointer's push, the
    shockwaves' kicks and the 0.98 drag.

    Distances are compared through their squares, so no square root is
    needed: `Within` and `InBand` are proved equal to the source's
    comparisons of `Math.sqrt(dx*dx + dy*dy)`. The pull `50/dist * dx/dist`
    is `50 dx / d2` exactly. The pointer's push and the shockwave's kick need
    a square root or `atan2`, `cos` and `sin`, and are the parameters in
    `Forces`. */
module Particles {
  import opened Types
  import opened Optional
  import opened RealArith

  const Drag: real := 0.98
  const CaptureRadius: real := 400.0
  const PointerRadius: real := 200.0
  const BandHalfWidth: real := 30.0
  const Pull: real := 50.0

  /** The black hole as the particle pass sees it: its parallax-shifted
      centre and its horizon radius. */
  datatype Hole = Hole(x: real, y: real, radius: real)

  /** `repel(dx, dy)` is what the pointer subtracts from the velocity when it
      is `(dx, dy)` away, `(dx/dist * force * 0.5, dy/dist * force * 0.5)`;
      `kick(dx, dy)` is what a ring adds to a particle `(dx, dy)` from its
      centre, `(cos(atan2(dy, dx)) * 2, sin(atan2(dy, dx)) * 2)`. */
  datatype Forces = Forces(repel: (real, real) -> Vec, kick: (real, real) -> Vec)

  /** The two `Math.random()` draws a respawn reads: the new x, then the edge. */
  datatype Respawn = Respawn(u: Unit, v: Unit)

  function SqDist(dx: real, dy: real): real {
    dx * dx + dy * dy
  }

  /** `dist < r`, with `d2` the squared distance. */
  predicate Within(d2: real, r: real) {
    0.0 <= r && d2 < r * r
  }

  /** `Math.abs(dist - radius) < 30`, with `d2` the squared distance. */
  predicate InBand(d2: real, radius: real) {
    && 0.0 < radius + BandHalfWidth
    && d2 < (radius + BandHalfWidth) * (radius + BandHalfWidth)
    && (radius - BandHalfWidth < 0.0 || (radius - BandHalfWidth) * (radius - BandHalfWidth) < d2)
  }

  /** A draw times a positive extent lies in [0, extent). */
  lemma ScaleBelow(u: Unit, extent: real)
    requires 0.0 < extent
    ensures 0.0 <= u * extent < extent
  {
    ProductNonNegative(u, extent);
    ProductPositive(1.0 - u, extent);
  }

  /** Outside a horizon of positive radius the distance is positive. */
  lemma OutsideHorizon(d2: real, r: real)
    requires 0.0 < r && !Within(d2, r)
    ensures 0.0 < d2
  {
    ProductPositive(r, r);
    calc {
      d2;
    >=
      r * r;
    >
      0.0;
    }
  }

  /** `Within` is the source's `dist < r` for the true distance `s`. */
  lemma WithinIsDistance(s: real, d2: real, r: real)
    requires 0.0 <= s && s * s == d2
    ensures s < r <==> Within(d2, r)
  {
    if 0.0 <= r {
      SquareMonotone(s, r);
    }
  }

  /** The source's pull `dx / dist * (50 / dist)`, for the true distance `s`,
      is the model's `50 dx / d2`. */
  lemma PullIsDistance(s: real, d2: real, dx: real)
    requires 0.0 < s && 0.0 < d2 && s * s == d2
    ensures dx / s * (Pull / s) == Pull * dx / d2
  {
    assert dx / s * (Pull / s) == (Pull * dx) / (s * s);
  }

  /** `InBand` is the source's `Math.abs(dist - radius) < 30` for the true
      distance `s`. */
  lemma InBandIsDistance(s: real, d2: real, radius: real)
    requires 0.0 <= s && s * s == d2
    ensures -BandHalfWidth < s - radius < BandHalfWidth <==> InBand(d2, radius)
  {
    var hi := radius + BandHalfWidth;
    var lo := radius - BandHalfWidth;
    if 0.0 < hi {
      SquareMonotone(s, hi);
    }
    if 0.0 <= lo {
      SquareMonotone(lo, s);
    }
  }

  /** `if (c < 0 || c > bound) v *= -1`. */
  function Flip(v: real, c: real, bound: real): real {
    if c < 0.0 || c > bound then -v else v
  }

  /** Position plus velocity, then the bounce; nothing is clamped. */
  function Integrate(p: Particle, w: nat, h: nat): Particle {
    var x := p.x + p.vx;
    var y := p.y + p.vy;
    p.(x := x, y := y, vx := Flip(p.vx, x, w as real), vy := Flip(p.vy, y, h as real))
  }

  /** The black hole: inside the horizon the particle respawns on the top or
      bottom edge; inside the capture radius it is pulled by `50 / dist`. */
  function HoleStage(q: Particle, hole: Option<Hole>, w: nat, h: nat, draw: Respawn): Particle
    requires hole.Some? ==> hole.value.radius > 0.0
  {
    match hole
    case None => q
    case Some(bh) =>
      var dx := bh.x - q.x;
      var dy := bh.y - q.y;
      var d2 := SqDist(dx, dy);
      if Within(d2, bh.radius) then
        q.(x := draw.u * w as real, y := if draw.v < 0.5 then 0.0 else h as real)
      else if Within(d2, CaptureRadius) then
        OutsideHorizon(d2, bh.radius);
        q.(vx := q.vx + Pull * dx / d2, vy := q.vy + Pull * dy / d2)
      else q
  }

  /** The active pointer pushes particles within 200 away. */
  function PointerStage(q: Particle, pointer: Pointer, forces: Forces): Particle {
    if !pointer.active then q
    else
      var dx := pointer.x - q.x;
      var dy := pointer.y - q.y;
      if Within(SqDist(dx, dy), PointerRadius) then
        var f := forces.repel(dx, dy);
        q.(vx := q.vx - f.x, vy := q.vy - f.y)
      else q
  }

  /** The summed kicks of the rings whose band holds `(x, y)`. */
  function Kicks(x: real, y: real, waves: seq<Shockwave>, forces: Forces): (k: Vec)
    ensures (forall i | 0 <= i < |waves| :: !InBand(SqDist(x - waves[i].x, y - waves[i].y), waves[i].radius))
            ==> k == Vec(0.0, 0.0)
    ensures |waves| == 1 && InBand(SqDist(x - waves[0].x, y - waves[0].y), waves[0].radius)
            ==> k == forces.kick(x - waves[0].x, y - waves[0].y)
  {
    if waves == [] then Vec(0.0, 0.0)
    else
      var sw := waves[0];
      var rest := Kicks(x, y, waves[1..], forces);
      var dx := x - sw.x;
      var dy := y - sw.y;
      if InBand(SqDist(dx, dy), sw.radius) then
        var f := forces.kick(dx, dy);
        Vec(f.x + rest.x, f.y + rest.y)
      else rest
  }

  /** Kicks add up: the rings of `a + b` kick a point by the sum of what the
      rings of `a` and of `b` kick it by. With the single-ring case of
      `Kicks`, each ring whose band holds the point adds exactly its own kick. */
  lemma {:induction false} KicksAppend(x: real, y: real, a: seq<Shockwave>, b: seq<Shockwave>, forces: Forces)
    ensures var ka, kb := Kicks(x, y, a, forces), Kicks(x, y, b, forces);
            Kicks(x, y, a + b, forces) == Vec(ka.x + kb.x, ka.y + kb.y)
  {
    if a == [] {
      assert a + b == b;
    } else {
      var c := a + b;
      assert c[0] == a[0] && c[1..] == a[1..] + b;
      KicksCons(x, y, a, forces);
      KicksCons(x, y, c, forces);
      KicksAppend(x, y, a[1..], b, forces);
    }
  }

  /** What one ring adds to the kicks at `(x, y)`. */
  function RingKick(x: real, y: real, sw: Shockwave, forces: Forces): Vec {
    if InBand(SqDist(x - sw.x, y - sw.y), sw.radius) then forces.kick(x - sw.x, y - sw.y) else Vec(0.0, 0.0)
  }

  lemma KicksCons(x: real, y: real, waves: seq<Shockwave>, forces: Forces)
    requires waves != []
    ensures var k, f, rest := Kicks(x, y, waves, forces), RingKick(x, y, waves[0], forces), Kicks(x, y, waves[1..], forces);
            k == Vec(f.x + rest.x, f.y + rest.y)
  {
  }

  /** The black hole's pull on a particle that has moved to `(x, y)`: toward
      the hole by `50 dx / d2` inside the capture radius, nothing outside it
      and nothing inside the horizon, where the particle respawns instead. */
  function PullAt(x: real, y: real, hole: Option<Hole>): Vec
    requires hole.Some? ==> hole.value.radius > 0.0
  {
    match hole
    case None => Vec(0.0, 0.0)
    case Some(bh) =>
      var dx := bh.x - x;
      var dy := bh.y - y;
      var d2 := SqDist(dx, dy);
      if Within(d2, bh.radius) || !Within(d2, CaptureRadius) then Vec(0.0, 0.0)
      else
        OutsideHorizon(d2, bh.radius);
        Vec(Pull * dx / d2, Pull * dy / d2)
  }

  /** The pull has the source's strength `50 / dist`: its squared length
      times the squared distance is `50^2`, and it points at the hole. */
  lemma PullStrength(x: real, y: real, bh: Hole)
    requires bh.radius > 0.0
    requires var d2 := SqDist(bh.x - x, bh.y - y);
             !Within(d2, bh.radius) && Within(d2, CaptureRadius)
    ensures var d2, f := SqDist(bh.x - x, bh.y - y), PullAt(x, y, Some(bh));
            && SqDist(f.x, f.y) * d2 == Pull * Pull
            && f.x * (bh.x - x) >= 0.0 && f.y * (bh.y - y) >= 0.0
  {
    var dx := bh.x - x;
    var dy := bh.y - y;
    var d2 := SqDist(dx, dy);
    OutsideHorizon(d2, bh.radius);
    var f := PullAt(x, y, Some(bh));
    assert f == Vec(Pull * dx / d2, Pull * dy / d2);
    PullSquares(dx, dy, d2, f);
    ScaledSameSign(dx, Pull / d2);
    ScaledSameSign(dy, Pull / d2);
    assert f.x == dx * (Pull / d2) && f.y == dy * (Pull / d2);
  }

  lemma PullSquares(dx: real, dy: real, d2: real, f: Vec)
    requires 0.0 < d2 && d2 == dx * dx + dy * dy
    requires f == Vec(Pull * dx / d2, Pull * dy / d2)
    ensures SqDist(f.x, f.y) * d2 == Pull * Pull
  {
    var c := Pull / d2;
    assert f.x == c * dx && f.y == c * dy;
    calc {
      SqDist(f.x, f.y) * d2;
    ==
      (c * c) * (dx * dx + dy * dy) * d2;
    ==
      (c * c) * (d2 * d2);
    ==
      (c * d2) * (c * d2);
    ==
      Pull * Pull;
    }
  }

  /** Scaling by a positive factor keeps the sign. */
  lemma ScaledSameSign(d: real, c: real)
    requires 0.0 < c
    ensures (d * c) * d >= 0.0
  {
    if d >= 0.0 {
      ProductNonNegative(d, c);
      ProductNonNegative(d * c, d);
    } else {
      ProductNonNegative(-d, c);
      ProductNonNegative(-d * c, -d);
      assert (d * c) * d == (-d * c) * (-d);
    }
  }

  /** The active pointer's push on a particle at `(x, y)`: the `repel` force
      within 200 of the pointer, nothing farther away. */
  function PushAt(x: real, y: real, pointer: Pointer, forces: Forces): Vec {
    var dx := pointer.x - x;
    var dy := pointer.y - y;
    if pointer.active && Within(SqDist(dx, dy), PointerRadius) then forces.repel(dx, dy)
    else Vec(0.0, 0.0)
  }

  /** The particle after integration has landed inside the horizon. */
  predicate Captured(p: Particle, hole: Option<Hole>) {
    && hole.Some?
    && Within(SqDist(hole.value.x - (p.x + p.vx), hole.value.y - (p.y + p.vy)), hole.value.radius)
  }

  /** No force reaches the particle this frame. */
  predicate Quiet(p: Particle, hole: Option<Hole>, pointer: Pointer, waves: seq<Shockwave>) {
    var x := p.x + p.vx;
    var y := p.y + p.vy;
    && (hole.Some? ==>
          var d2 := SqDist(hole.value.x - x, hole.value.y - y);
          !Within(d2, hole.value.radius) && !Within(d2, CaptureRadius))
    && (pointer.active ==> !Within(SqDist(pointer.x - x, pointer.y - y), PointerRadius))
    && (forall i | 0 <= i < |waves| :: !InBand(SqDist(x - waves[i].x, y - waves[i].y), waves[i].radius))
  }

  /** One particle's frame. */
  function Step(p: Particle, w: nat, h: nat, hole: Option<Hole>, pointer: Pointer,
                waves: seq<Shockwave>, forces: Forces, draw: Respawn): (r: Particle)
    requires hole.Some? ==> hole.value.radius > 0.0
    ensures r.size == p.size && r.life == p.life
    ensures Captured(p, hole) ==> r.x == draw.u * w as real && r.y == (if draw.v < 0.5 then 0.0 else h as real)
    ensures !Captured(p, hole) ==> r.x == p.x + p.vx && r.y == p.y + p.vy
    ensures var pull, push, kick := PullAt(p.x + p.vx, p.y + p.vy, hole),
                                    PushAt(r.x, r.y, pointer, forces), Kicks(r.x, r.y, waves, forces);
            && r.vx == Drag * (Flip(p.vx, p.x + p.vx, w as real) + pull.x - push.x + kick.x)
            && r.vy == Drag * (Flip(p.vy, p.y + p.vy, h as real) + pull.y - push.y + kick.y)
  {
    var q1 := Integrate(p, w, h);
    var q2 := HoleStage(q1, hole, w, h, draw);
    var q3 := PointerStage(q2, pointer, forces);
    HoleStagePulls(q1, hole, w, h, draw);
    PointerStagePushes(q2, pointer, forces);
    var k := Kicks(q3.x, q3.y, waves, forces);
    q3.(vx := Drag * (q3.vx + k.x), vy := Drag * (q3.vy + k.y))
  }

  /** The black-hole stage adds the pull to the velocity; it moves only a
      captured particle. */
  lemma HoleStagePulls(q: Particle, hole: Option<Hole>, w: nat, h: nat, draw: Respawn)
    requires hole.Some? ==> hole.value.radius > 0.0
    ensures var r, f := HoleStage(q, hole, w, h, draw), PullAt(q.x, q.y, hole);
            && r.vx == q.vx + f.x && r.vy == q.vy + f.y
            && r.size == q.size && r.life == q.life
            && (!Captured(q.(vx := 0.0, vy := 0.0), hole) ==> r.x == q.x && r.y == q.y)
  {
  }

  /** The pointer stage subtracts the push and moves nothing. */
  lemma PointerStagePushes(q: Particle, pointer: Pointer, forces: Forces)
    ensures var r, f := PointerStage(q, pointer, forces), PushAt(q.x, q.y, pointer, forces);
            r == q.(vx := q.vx - f.x, vy := q.vy - f.y)
  {
  }

  /** A respawned particle lies on the top or bottom edge, within the width. */
  lemma RespawnOnEdge(p: Particle, w: nat, h: nat, hole: Option<Hole>, pointer: Pointer,
                      waves: seq<Shockwave>, forces: Forces, draw: Respawn)
    requires hole.Some? ==> hole.value.radius > 0.0
    requires Captured(p, hole)
    requires w > 0
    ensures var r := Step(p, w, h, hole, pointer, waves, forces, draw);
            0.0 <= r.x < w as real && (r.y == 0.0 || r.y == h as real)
  {
    var r := Step(p, w, h, hole, pointer, waves, forces, draw);
    EdgePoint(draw, w, h, r.x, r.y);
  }

  /** The point a respawn draw picks lies on the top or bottom edge. */
  lemma EdgePoint(draw: Respawn, w: nat, h: nat, x: real, y: real)
    requires w > 0
    requires x == draw.u * w as real && y == (if draw.v < 0.5 then 0.0 else h as real)
    ensures 0.0 <= x < w as real && (y == 0.0 || y == h as real)
  {
    ScaleBelow(draw.u, w as real);
  }

  /** A particle no force reaches keeps its course: its position moves by its
      velocity (never clamped), each velocity component keeps 98% of its
      magnitude, and changes sign exactly when the new coordinate is outside
      the viewport. */
  lemma QuietStep(p: Particle, w: nat, h: nat, hole: Option<Hole>, pointer: Pointer,
                  waves: seq<Shockwave>, forces: Forces, draw: Respawn)
    requires hole.Some? ==> hole.value.radius > 0.0
    requires Quiet(p, hole, pointer, waves)
    ensures var r := Step(p, w, h, hole, pointer, waves, forces, draw);
            && r.x == p.x + p.vx && r.y == p.y + p.vy
            && Abs(r.vx) == Drag * Abs(p.vx) && Abs(r.vy) == Drag * Abs(p.vy)
            && (p.vx != 0.0 ==> (r.vx * p.vx < 0.0 <==> p.x + p.vx < 0.0 || p.x + p.vx > w as real))
            && (p.vy != 0.0 ==> (r.vy * p.vy < 0.0 <==> p.y + p.vy < 0.0 || p.y + p.vy > h as real))
  {
    var q1 := Integrate(p, w, h);
    assert HoleStage(q1, hole, w, h, draw) == q1;
    assert PointerStage(q1, pointer, forces) == q1;
    assert Kicks(q1.x, q1.y, waves, forces) == Vec(0.0, 0.0);
    var r := Step(p, w, h, hole, pointer, waves, forces, draw);
    assert r.vx == Drag * q1.vx && r.vy == Drag * q1.vy;
    assert r.vx * p.vx == Drag * (q1.vx * p.vx);
    assert r.vy * p.vy == Drag * (q1.vy * p.vy);
  }

  /** The frame's particle pass: `forEach` steps each particle on its own, so
      the population keeps its size and order. */
  function StepAll(ps: seq<Particle>, w: nat, h: nat, hole: Option<Hole>, pointer: Pointer,
                   waves: seq<Shockwave>, forces: Forces, draws: seq<Respawn>): (r: seq<Particle>)
    requires hole.Some? ==> hole.value.radius > 0.0
    requires |draws| == |ps|
    ensures |r| == |ps|
    ensures forall i | 0 <= i < |ps| :: r[i] == Step(ps[i], w, h, hole, pointer, waves, forces, draws[i])
  {
    seq(|ps|, i requires 0 <= i < |ps| => Step(ps[i], w, h, hole, pointer, waves, forces, draws[i]))
  }

  // ---------------------------------------------------------------------------
  // Free flight: many frames with no black hole, no pointer and no rings.

  const NoForces: Forces := Forces((dx: real, dy: real) => Vec(0.0, 0.0), (dx: real, dy: real) => Vec(0.0, 0.0))

  function Pow(b: real, n: nat): real {
    if n == 0 then 1.0 else b * Pow(b, n - 1)
  }

  /** One frame in an otherwise empty viewport: move, bounce, drag. */
  function FreeStep(p: Particle, w: nat, h: nat): Particle {
    var q := Integrate(p, w, h);
    q.(vx := Drag * q.vx, vy := Drag * q.vy)
  }

  /** With no black hole, no active pointer and no rings, `Step` is the free step. */
  lemma FreeStepIsStep(p: Particle, w: nat, h: nat, pointer: Pointer, forces: Forces, draw: Respawn)
    requires !pointer.active
    ensures Step(p, w, h, None, pointer, [], forces, draw) == FreeStep(p, w, h)
  {
  }

  /** `n` frames in an otherwise empty viewport. */
  function Drift(p: Particle, w: nat, h: nat, n: nat): Particle
    decreases n
  {
    if n == 0 then p else Drift(FreeStep(p, w, h), w, h, n - 1)
  }

  lemma FreeStepFacts(p: Particle, w: nat, h: nat)
    ensures var q := FreeStep(p, w, h);
            && q.x == p.x + p.vx && q.y == p.y + p.vy
            && Abs(q.vx) == Drag * Abs(p.vx) && Abs(q.vy) == Drag * Abs(p.vy)
  {
    var q := Integrate(p, w, h);
    assert q.vx * q.vx == p.vx * p.vx && q.vy * q.vy == p.vy * p.vy;
  }

  /** The bound after `n` frames, along one axis: speed `0.98^n` times the
      initial speed, distance travelled at most `50 (1 - 0.98^n)` times it. */
  predicate AxisDecay(x0: real, v0: real, xn: real, vn: real, n: nat) {
    && Abs(vn) == Pow(Drag, n) * Abs(v0)
    && Abs(xn - x0) <= 50.0 * Abs(v0) * (1.0 - Pow(Drag, n))
  }

  /** One more frame of the bound along one axis. */
  lemma AxisStep(x0: real, v0: real, x1: real, v1: real, xn: real, vn: real, n: nat)
    requires n > 0
    requires x1 == x0 + v0 && Abs(v1) == Drag * Abs(v0)
    requires AxisDecay(x1, v1, xn, vn, n - 1)
    ensures AxisDecay(x0, v0, xn, vn, n)
  {
    var P := Pow(Drag, n - 1);
    assert Pow(Drag, n) == Drag * P;
    calc {
      Abs(vn);
      P * Abs(v1);
      P * (Drag * Abs(v0));
      (Drag * P) * Abs(v0);
    }
    calc {
      Abs(xn - x0);
    <=
      Abs(xn - x1) + Abs(v0);
    <=
      50.0 * Abs(v1) * (1.0 - P) + Abs(v0);
    ==
      50.0 * (Drag * Abs(v0)) * (1.0 - P) + Abs(v0);
    ==
      50.0 * Abs(v0) * (1.0 - Drag * P);
    }
  }

  /** Drag alone bounds a free particle: after `n` frames each velocity
      component has `0.98^n` times its initial magnitude, whatever the
      bounces, and the particle has travelled at most `50 (1 - 0.98^n)`
      times its initial speed along each axis. */
  lemma {:induction false} DriftBound(p: Particle, w: nat, h: nat, n: nat)
    ensures var r := Drift(p, w, h, n);
            AxisDecay(p.x, p.vx, r.x, r.vx, n) && AxisDecay(p.y, p.vy, r.y, r.vy, n)
    decreases n
  {
    if n > 0 {
      var q := FreeStep(p, w, h);
      FreeStepFacts(p, w, h);
      DriftBound(q, w, h, n - 1);
      var r := Drift(q, w, h, n - 1);
      assert Drift(p, w, h, n) == r;
      AxisStep(p.x, p.vx, q.x, q.vx, r.x, r.vx, n);
      AxisStep(p.y, p.vy, q.y, q.vy, r.y, r.vy, n);
    }
  }

  /** The source does not keep a respawned particle out of the horizon: in a
      viewport less than 120 high a centred hole of radius 60 reaches both
      edges, so the respawned particle is captured again, whatever the
      pointer and the rings do. */
  lemma RespawnMayStayInside(pointer: Pointer, waves: seq<Shockwave>, forces: Forces)
    ensures var hole := Some(Hole(100.0, 50.0, 60.0));
            var p := Particle(100.0, 50.0, 0.0, 0.0, 1.0, 0.0);
            var r := Step(p, 200, 100, hole, pointer, waves, forces, Respawn(0.5, 0.25));
            Captured(p, hole) && r.x == 100.0 && r.y == 0.0 && Captured(r.(vx := 0.0, vy := 0.0), hole)
  {
    var hole := Some(Hole(100.0, 50.0, 60.0));
    var p := Particle(100.0, 50.0, 0.0, 0.0, 1.0, 0.0);
    assert Captured(p, hole);
  }
}

=== FILE: proximity.dfy ===
/** The proximity graph drawn over the particles: an edge for every pair
    closer than `sqrt(20000)`, and in MESH mode a triangle for every triple
    whose three sides are all that short. Pairs and triples are visited in
    increasing index order, so each is emitted once, in lexicographic order. */
module Proximity {
  import opened Types

  const LinkDistanceSq: real := 20000.0

  predicate Near(a: Particle, b: Particle) {
    (a.x - b.x) * (a.x - b.x) + (a.y - b.y) * (a.y - b.y) < LinkDistanceSq
  }

  predicate IsEdge(ps: seq<Particle>, i: nat, j: nat) {
    i < j < |ps| && Near(ps[i], ps[j])
  }

  predicate IsTriangle(ps: seq<Particle>, i: nat, j: nat, k: nat) {
    i < j < k < |ps| && Near(ps[i], ps[j]) && Near(ps[j], ps[k]) && Near(ps[i], ps[k])
  }

  predicate EdgeBefore(e: (nat, nat), f: (nat, nat)) {
    e.0 < f.0 || (e.0 == f.0 && e.1 < f.1)
  }

  predicate TriangleBefore(t: (nat, nat, nat), u: (nat, nat, nat)) {
    t.0 < u.0 || (t.0 == u.0 && (t.1 < u.1 || (t.1 == u.1 && t.2 < u.2)))
  }

  predicate EdgesAscending(es: seq<(nat, nat)>) {
    forall p | 0 < p < |es| :: EdgeBefore(es[p - 1], es[p])
  }

  predicate TrianglesAscending(ts: seq<(nat, nat, nat)>) {
    forall p | 0 < p < |ts| :: TriangleBefore(ts[p - 1], ts[p])
  }

  /** The nested scans of the render loop. */
  method Graph(ps: seq<Particle>, mode: RenderMode) returns (edges: seq<(nat, nat)>, triangles: seq<(nat, nat, nat)>)
    ensures mode == Particles ==> edges == [] && triangles == []
    ensures mode != Particles ==> forall i: nat, j: nat :: (i, j) in edges <==> IsEdge(ps, i, j)
    ensures forall i: nat, j: nat, k: nat :: (i, j, k) in triangles <==> mode == Mesh && IsTriangle(ps, i, j, k)
    ensures EdgesAscending(edges) && TrianglesAscending(triangles)
  {
    edges := [];
    triangles := [];
    if mode == Particles {
      return;
    }
    var i := 0;
    while i < |ps|
      invariant 0 <= i <= |ps|
      invariant forall a: nat, b: nat :: (a, b) in edges <==> IsEdge(ps, a, b) && a < i
      invariant forall a: nat, b: nat, c: nat :: (a, b, c) in triangles <==> mode == Mesh && IsTriangle(ps, a, b, c) && a < i
      invariant forall e | e in edges :: e.0 < i
      invariant forall t | t in triangles :: t.0 < i
      invariant EdgesAscending(edges) && TrianglesAscending(triangles)
    {
      edges, triangles := Row(ps, mode, i, edges, triangles);
      i := i + 1;
    }
  }

  /** The scan of the pairs `(i, j)` with `j > i`, and of their triangles. */
  method Row(ps: seq<Particle>, mode: RenderMode, i: nat, edges0: seq<(nat, nat)>, triangles0: seq<(nat, nat, nat)>)
    returns (edges: seq<(nat, nat)>, triangles: seq<(nat, nat, nat)>)
    requires mode != Particles && i < |ps|
    requires forall a: nat, b: nat :: (a, b) in edges0 <==> IsEdge(ps, a, b) && a < i
    requires forall a: nat, b: nat, c: nat :: (a, b, c) in triangles0 <==> mode == Mesh && IsTriangle(ps, a, b, c) && a < i
    requires forall e | e in edges0 :: e.0 < i
    requires forall t | t in triangles0 :: t.0 < i
    requires EdgesAscending(edges0) && TrianglesAscending(triangles0)
    ensures forall a: nat, b: nat :: (a, b) in edges <==> IsEdge(ps, a, b) && a <= i
    ensures forall a: nat, b: nat, c: nat :: (a, b, c) in triangles <==> mode == Mesh && IsTriangle(ps, a, b, c) && a <= i
    ensures forall e | e in edges :: e.0 <= i
    ensures forall t | t in triangles :: t.0 <= i
    ensures EdgesAscending(edges) && TrianglesAscending(triangles)
  {
    edges := edges0;
    triangles := triangles0;
    var j := i + 1;
    while j < |ps|
      invariant i + 1 <= j <= |ps|
      invariant forall a: nat, b: nat :: (a, b) in edges <==> IsEdge(ps, a, b) && (a < i || (a == i && b < j))
      invariant forall a: nat, b: nat, c: nat :: (a, b, c) in triangles <==>
                  mode == Mesh && IsTriangle(ps, a, b, c) && (a < i || (a == i && b < j))
      invariant forall e | e in edges :: EdgeBefore(e, (i, j))
      invariant forall t | t in triangles :: TriangleBefore(t, (i, j, j))
      invariant EdgesAscending(edges) && TrianglesAscending(triangles)
    {
      if Near(ps[i], ps[j]) {
        AppendEdge(edges, (i, j));
        edges := edges + [(i, j)];
        if mode == Mesh {
          triangles := Fan(ps, i, j, triangles);
        }
      }
      j := j + 1;
    }
  }

  lemma AppendEdge(es: seq<(nat, nat)>, e: (nat, nat))
    requires EdgesAscending(es)
    requires forall f | f in es :: EdgeBefore(f, e)
    ensures EdgesAscending(es + [e])
    ensures forall f :: f in es + [e] <==> f in es || f == e
  {
    if |es| > 0 {
      assert es[|es| - 1] in es;
    }
  }

  lemma AppendTriangle(ts: seq<(nat, nat, nat)>, t: (nat, nat, nat))
    requires TrianglesAscending(ts)
    requires forall u | u in ts :: TriangleBefore(u, t)
    ensures TrianglesAscending(ts + [t])
    ensures forall u :: u in ts + [t] <==> u in ts || u == t
  {
    if |ts| > 0 {
      assert ts[|ts| - 1] in ts;
    }
  }

  /** The innermost scan: every `k > j` that closes a triangle with the edge
      `(i, j)` is appended, in increasing order. */
  method Fan(ps: seq<Particle>, i: nat, j: nat, before: seq<(nat, nat, nat)>) returns (triangles: seq<(nat, nat, nat)>)
    requires i < j < |ps| && Near(ps[i], ps[j])
    requires forall t | t in before :: TriangleBefore(t, (i, j, j))
    requires TrianglesAscending(before)
    ensures forall t :: t in triangles <==> t in before || (t.0 == i && t.1 == j && IsTriangle(ps, i, j, t.2))
    ensures forall t | t in triangles :: TriangleBefore(t, (i, j + 1, j + 1))
    ensures TrianglesAscending(triangles)
  {
    triangles := before;
    var k := j + 1;
    while k < |ps|
      invariant j + 1 <= k <= |ps|
      invariant forall t :: t in triangles <==> t in before || (t.0 == i && t.1 == j && IsTriangle(ps, i, j, t.2) && t.2 < k)
      invariant forall t | t in triangles :: TriangleBefore(t, (i, j, k))
      invariant TrianglesAscending(triangles)
    {
      if Near(ps[j], ps[k]) && Near(ps[i], ps[k]) {
        AppendTriangle(triangles, (i, j, k));
        triangles := triangles + [(i, j, k)];
      }
      k := k + 1;
    }
  }
}

=== FILE: seqs.dfy ===
/** Order-preserving selection from a sequence, as `Array.prototype.filter` does. */
module Seqs {

  /** `sub` can be obtained from `s` by deleting elements, without reordering. */
  predicate IsSubseq<T(==)>(sub: seq<T>, s: seq<T>)
    decreases |s|
  {
    if sub == [] then true
    else if s == [] then false
    else if sub[0] == s[0] then IsSubseq(sub[1..], s[1..])
    else IsSubseq(sub, s[1..])
  }

  /** The elements of `s` that satisfy `keep`, in their original order. */
  function Filter<T>(keep: T -> bool, s: seq<T>): (r: seq<T>)
    ensures |r| <= |s|
    ensures forall i | 0 <= i < |r| :: r[i] in s && keep(r[i])
    ensures forall i | 0 <= i < |s| :: keep(s[i]) ==> s[i] in r
  {
    if s == [] then []
    else (if keep(s[0]) then [s[0]] else []) + Filter(keep, s[1..])
  }

  /** Filtering keeps every occurrence of a kept value and none of the others. */
  lemma {:induction false} FilterCounts<T>(keep: T -> bool, s: seq<T>, x: T)
    ensures multiset(Filter(keep, s))[x] == if keep(x) then multiset(s)[x] else 0
  {
    if s != [] {
      FilterCounts(keep, s[1..], x);
      assert s == [s[0]] + s[1..];
      var head := if keep(s[0]) then [s[0]] else [];
      assert multiset(Filter(keep, s)) == multiset(head) + multiset(Filter(keep, s[1..]));
      assert multiset(s) == multiset([s[0]]) + multiset(s[1..]);
    }
  }

  /** Filtering never reorders: its result is a subsequence of its input. */
  lemma {:induction false} FilterIsSubseq<T>(keep: T -> bool, s: seq<T>)
    ensures IsSubseq(Filter(keep, s), s)
  {
    if s != [] {
      FilterIsSubseq(keep, s[1..]);
      var rest := Filter(keep, s[1..]);
      if keep(s[0]) {
        assert Filter(keep, s) == [s[0]] + rest;
        assert ([s[0]] + rest)[1..] == rest;
      } else {
        assert Filter(keep, s) == rest;
        SkipHead(rest, s);
      }
    }
  }

  /** A subsequence of the tail is a subsequence of the whole. */
  lemma {:induction false} SkipHead<T>(sub: seq<T>, s: seq<T>)
    requires s != []
    requires IsSubseq(sub, s[1..])
    ensures IsSubseq(sub, s)
    decreases |s|, 0
  {
    if sub != [] && sub[0] == s[0] {
      DropFirst(sub, s[1..]);
    }
  }

  /** Dropping the first element of a subsequence leaves a subsequence. */
  lemma {:induction false} DropFirst<T>(sub: seq<T>, s: seq<T>)
    requires sub != []
    requires IsSubseq(sub, s)
    ensures IsSubseq(sub[1..], s)
    decreases |s|, 1
  {
    if sub[0] == s[0] {
      SkipHead(sub[1..], s);
    } else {
      DropFirst(sub, s[1..]);
      SkipHead(sub[1..], s);
    }
  }

  /** A sequence kept whole by a filter is returned unchanged. */
  lemma {:induction false} FilterKeepsAll<T>(keep: T -> bool, s: seq<T>)
    requires forall i | 0 <= i < |s| :: keep(s[i])
    ensures Filter(keep, s) == s
  {
    if s != [] {
      FilterKeepsAll(keep, s[1..]);
      assert [s[0]] + s[1..] == s;
    }
  }

  /** Two predicates that agree on every element select the same elements. */
  lemma {:induction false} FilterCongruent<T>(a: T -> bool, b: T -> bool, s: seq<T>)
    requires forall i | 0 <= i < |s| :: a(s[i]) == b(s[i])
    ensures Filter(a, s) == Filter(b, s)
  {
    if s != [] {
      FilterCongruent(a, b, s[1..]);
    }
  }
}

=== FILE: shockwaves.dfy ===
/** The shockwave life cycle: a mouse press appends a ring of radius 1; every
    frame each ring grows by 10 and is spliced out in the first frame its
    opacity `1 - radius / maxRadius` is no longer positive. */
module Shockwaves {
  import opened Types

  const Growth: real := 10.0
  const PressRadius: real := 1.0
  const PressMaxRadius: real := 500.0
  const PressStrength: real := 50.0

  /** Every ring can be faded: its maximum radius is positive. */
  predicate WellFormed(ws: seq<Shockwave>) {
    forall i | 0 <= i < |ws| :: ws[i].maxRadius > 0.0
  }

  function Opacity(sw: Shockwave): real
    requires sw.maxRadius > 0.0
  {
    1.0 - sw.radius / sw.maxRadius
  }

  function Grow(sw: Shockwave): Shockwave {
    sw.(radius := sw.radius + Growth)
  }

  /** A ring is still drawn exactly while its radius is below its maximum. */
  lemma OpacityPositive(sw: Shockwave)
    requires sw.maxRadius > 0.0
    ensures Opacity(sw) > 0.0 <==> sw.radius < sw.maxRadius
  {
    var q := sw.radius / sw.maxRadius;
    assert q * sw.maxRadius == sw.radius;
    if q < 1.0 {
      assert q * sw.maxRadius < 1.0 * sw.maxRadius;
    } else {
      assert q * sw.maxRadius >= 1.0 * sw.maxRadius;
    }
  }

  /** Growing a ring strictly lowers its opacity. */
  lemma OpacityDecreases(sw: Shockwave)
    requires sw.maxRadius > 0.0
    ensures Opacity(Grow(sw)) < Opacity(sw)
  {
    assert Grow(sw).radius / sw.maxRadius == sw.radius / sw.maxRadius + Growth / sw.maxRadius;
  }

  /** A ring that is still drawn. */
  predicate Alive(sw: Shockwave) {
    sw.radius < sw.maxRadius
  }

  /** One frame of ageing, as a list function: the grown rings still below
      their maximum radius, in their original order. */
  function Survivors(ws: seq<Shockwave>): (r: seq<Shockwave>)
    requires WellFormed(ws)
    ensures WellFormed(r)
    ensures |r| <= |ws|
    ensures forall i | 0 <= i < |r| :: r[i].radius < r[i].maxRadius
  {
    if ws == [] then []
    else
      var g := Grow(ws[0]);
      (if Alive(g) then [g] else []) + Survivors(ws[1..])
  }

  /** Every ring that survives a frame is drawn with a positive opacity. */
  lemma SurvivorsVisible(ws: seq<Shockwave>)
    requires WellFormed(ws)
    ensures forall i | 0 <= i < |Survivors(ws)| :: Opacity(Survivors(ws)[i]) > 0.0
  {
    var r := Survivors(ws);
    forall i | 0 <= i < |r|
      ensures Opacity(r[i]) > 0.0
    {
      OpacityPositive(r[i]);
    }
  }

  /** The render loop's pass: walk the list from the back, grow each ring and
      splice out the ones whose opacity has reached zero. */
  method Age(ws: seq<Shockwave>) returns (out: seq<Shockwave>)
    requires WellFormed(ws)
    ensures out == Survivors(ws)
  {
    out := ws;
    var i := |ws| - 1;
    assert ws[..i + 1] == ws && ws[i + 1..] == [];
    while i >= 0
      invariant -1 <= i < |ws|
      invariant out == ws[..i + 1] + Survivors(ws[i + 1..])
    {
      SpliceStep(ws, i, out);
      out := AgeAt(out, i);
      i := i - 1;
    }
    assert ws[..0] == [] && ws[0..] == ws;
  }

  /** The body of the backward pass at index `i`: grow the ring, then splice
      it out if its opacity is no longer positive. */
  function AgeAt(out: seq<Shockwave>, i: nat): seq<Shockwave>
    requires i < |out| && out[i].maxRadius > 0.0
  {
    var sw := out[i].(radius := out[i].radius + 10.0);
    var opacity := 1.0 - sw.radius / sw.maxRadius;
    if opacity <= 0.0 then out[..i] + out[i + 1..] else out[i := sw]
  }

  lemma SpliceOut(pre: seq<Shockwave>, x: Shockwave, rest: seq<Shockwave>)
    ensures var s := pre + [x] + rest; s[..|pre|] + s[|pre| + 1..] == pre + rest
  {
    var s := pre + [x] + rest;
    assert s[..|pre|] == pre;
    assert s[|pre| + 1..] == rest;
  }

  lemma ReplaceAt(pre: seq<Shockwave>, x: Shockwave, y: Shockwave, rest: seq<Shockwave>)
    ensures (pre + [x] + rest)[|pre| := y] == pre + ([y] + rest)
  {
  }

  /** One iteration of the backward pass extends the aged suffix by one ring. */
  lemma SpliceStep(ws: seq<Shockwave>, i: nat, out: seq<Shockwave>)
    requires WellFormed(ws) && i < |ws|
    requires out == ws[..i + 1] + Survivors(ws[i + 1..])
    ensures out[i] == ws[i]
    ensures AgeAt(out, i) == ws[..i] + Survivors(ws[i..])
  {
    var pre := ws[..i];
    var rest := Survivors(ws[i + 1..]);
    assert out == pre + [ws[i]] + rest by {
      assert ws[..i + 1] == pre + [ws[i]];
    }
    AgeAtSplit(out, pre, ws[i], rest);
    SurvivorsAt(ws, i);
  }

  /** The backward pass's body at the boundary between an untouched prefix
      and an aged suffix: the ring there is grown and kept, or spliced out. */
  lemma AgeAtSplit(out: seq<Shockwave>, pre: seq<Shockwave>, x: Shockwave, rest: seq<Shockwave>)
    requires x.maxRadius > 0.0 && out == pre + [x] + rest
    ensures out[|pre|] == x
    ensures AgeAt(out, |pre|) == pre + ((if Alive(Grow(x)) then [Grow(x)] else []) + rest)
  {
    var g := Grow(x);
    OpacityPositive(g);
    if Alive(g) {
      ReplaceAt(pre, x, g, rest);
    } else {
      SpliceOut(pre, x, rest);
    }
  }

  /** Ageing the suffix from `i` is ageing `ws[i]` in front of ageing the rest. */
  lemma SurvivorsAt(ws: seq<Shockwave>, i: nat)
    requires WellFormed(ws) && i < |ws|
    ensures Survivors(ws[i..]) ==
              (if Alive(Grow(ws[i])) then [Grow(ws[i])] else []) + Survivors(ws[i + 1..])
  {
    assert ws[i..][0] == ws[i] && ws[i..][1..] == ws[i + 1..];
  }

  /** Rings age independently: ageing a concatenation ages each part. */
  lemma {:induction false} SurvivorsAppend(a: seq<Shockwave>, b: seq<Shockwave>)
    requires WellFormed(a) && WellFormed(b)
    ensures WellFormed(a + b)
    ensures Survivors(a + b) == Survivors(a) + Survivors(b)
  {
    assert forall i | 0 <= i < |a + b| :: (a + b)[i] in a || (a + b)[i] in b;
    if a != [] {
      assert (a + b)[0] == a[0];
      assert (a + b)[1..] == a[1..] + b;
      SurvivorsAppend(a[1..], b);
    } else {
      assert a + b == b;
    }
  }

  /** `n` frames of ageing. */
  function AgeFrames(ws: seq<Shockwave>, n: nat): (r: seq<Shockwave>)
    requires WellFormed(ws)
    ensures WellFormed(r)
    decreases n
  {
    if n == 0 then ws else AgeFrames(Survivors(ws), n - 1)
  }

  /** A single ring is present after `n` frames exactly while its radius
      plus `10 n` is below its maximum, and then has grown by `10 n`. */
  lemma {:induction false} RingAfterFrames(sw: Shockwave, n: nat)
    requires sw.maxRadius > 0.0
    ensures var grown := sw.(radius := sw.radius + 10.0 * n as real);
            AgeFrames([sw], n) == if n == 0 || grown.radius < sw.maxRadius then [grown] else []
    decreases n
  {
    if n > 0 {
      var g := Grow(sw);
      var grown := sw.(radius := sw.radius + 10.0 * n as real);
      SurvivorsSingle(sw);
      assert AgeFrames([sw], n) == AgeFrames(Survivors([sw]), n - 1);
      if Alive(g) {
        RingAfterFrames(g, n - 1);
        assert g.(radius := g.radius + 10.0 * (n - 1) as real) == grown;
      } else {
        EmptyStaysEmpty(n - 1);
        assert !(grown.radius < sw.maxRadius);
      }
    }
  }

  lemma SurvivorsSingle(sw: Shockwave)
    requires sw.maxRadius > 0.0
    ensures Survivors([sw]) == if Alive(Grow(sw)) then [Grow(sw)] else []
  {
    assert [sw][1..] == [];
  }

  lemma {:induction false} EmptyStaysEmpty(n: nat)
    ensures AgeFrames([], n) == []
    decreases n
  {
    if n > 0 {
      EmptyStaysEmpty(n - 1);
    }
  }

  /** Over any number of frames, rings still age independently of each other. */
  lemma {:induction false} AgeFramesAppend(a: seq<Shockwave>, b: seq<Shockwave>, n: nat)
    requires WellFormed(a) && WellFormed(b)
    ensures WellFormed(a + b)
    ensures AgeFrames(a + b, n) == AgeFrames(a, n) + AgeFrames(b, n)
    decreases n
  {
    SurvivorsAppend(a, b);
    if n > 0 {
      AgeFramesAppend(Survivors(a), Survivors(b), n - 1);
    }
  }

  /** `handleMouseDown`: exactly one new ring, at the press point, appended. */
  function Press(ws: seq<Shockwave>, x: real, y: real, id: int): (r: seq<Shockwave>)
    requires WellFormed(ws)
    ensures WellFormed(r)
    ensures |r| == |ws| + 1 && r[..|ws|] == ws
    ensures r[|ws|].x == x && r[|ws|].y == y && r[|ws|].radius == PressRadius
    ensures r[|ws|].maxRadius == PressMaxRadius && r[|ws|].strength == PressStrength
  {
    ws + [Shockwave(id, x, y, PressRadius, PressMaxRadius, PressStrength)]
  }

  /** A pressed ring is drawn on exactly 49 frames, with radius `1 + 10 n` on
      the n-th, and is gone after the 50th. */
  lemma PressedRingLifetime(x: real, y: real, id: int, n: nat)
    ensures var ring := Press([], x, y, id)[0];
            && (1 <= n <= 49 ==> AgeFrames([ring], n) == [ring.(radius := 1.0 + 10.0 * n as real)])
            && (n >= 50 ==> AgeFrames([ring], n) == [])
  {
    var ring := Press([], x, y, id)[0];
    RingAfterFrames(ring, n);
  }
}

=== FILE: star_field.dfy ===
/** The star layer's draw position: the parallax shift scaled by depth, then
    wrapped onto the screen with JavaScript's `%` and a correction for a
    negative remainder. */
module StarField {
  import opened Types
  import opened Optional
  import opened RealArith

  /** Integer part, rounding toward zero. */
  function Trunc(q: real): (t: int)
    ensures Abs(t as real) <= Abs(q) < Abs(t as real) + 1.0
    ensures q >= 0.0 ==> t >= 0
    ensures q < 0.0 ==> t <= 0
  {
    if q >= 0.0 then q.Floor else -((-q).Floor)
  }

  /** JavaScript's `a % b` on numbers: the remainder of division truncated
      toward zero. It takes the sign of the dividend `a` (a floored remainder
      would take the sign of `b`) and differs from `a` by a whole multiple
      of `b`. */
  function JsRem(a: real, b: real): (m: real)
    requires b != 0.0
    ensures Abs(m) < Abs(b)
    ensures a >= 0.0 ==> m >= 0.0
    ensures a < 0.0 ==> m <= 0.0
    ensures ((a - m) / b).Floor as real == (a - m) / b
  {
    var t := Trunc(a / b);
    TruncatedRemainder(a, b, t);
    a - b * t as real
  }

  lemma TruncatedRemainder(a: real, b: real, t: int)
    requires b != 0.0 && t == Trunc(a / b)
    ensures var m := a - b * t as real;
            && Abs(m) < Abs(b)
            && (a >= 0.0 ==> m >= 0.0) && (a < 0.0 ==> m <= 0.0)
            && ((a - m) / b).Floor as real == (a - m) / b
  {
    RemainderBelow(a, b, t);
    RemainderSignOf(a, b, t);
    WholeQuotient(a - (a - b * t as real), b, t);
  }

  /** The remainder is `b` times the fractional part `a / b - t`. */
  lemma RemainderFactor(a: real, b: real, t: int)
    requires b != 0.0
    ensures a - b * t as real == b * (a / b - t as real)
  {
    assert a == b * (a / b);
  }

  lemma RemainderBelow(a: real, b: real, t: int)
    requires b != 0.0 && t == Trunc(a / b)
    ensures Abs(a - b * t as real) < Abs(b)
  {
    var f := a / b - t as real;
    assert Abs(f) < 1.0 by {
      assert Abs(t as real) <= Abs(a / b) < Abs(t as real) + 1.0;
    }
    RemainderFactor(a, b, t);
    AbsProductBelow(a - b * t as real, b, f);
  }

  lemma RemainderSignOf(a: real, b: real, t: int)
    requires b != 0.0 && t == Trunc(a / b)
    ensures a >= 0.0 ==> a - b * t as real >= 0.0
    ensures a < 0.0 ==> a - b * t as real <= 0.0
  {
    RemainderFactor(a, b, t);
    RemainderSign(a, b, a / b - t as real);
  }

  /** `b t / b` is the whole number `t`. */
  lemma WholeQuotient(x: real, b: real, t: int)
    requires b != 0.0 && x == b * t as real
    ensures (x / b).Floor as real == x / b
  {
    assert x / b == t as real;
  }

  /** `b f` has the sign of `a` when `f` has the sign of `a / b`. */
  lemma RemainderSign(a: real, b: real, f: real)
    requires b != 0.0
    requires a / b >= 0.0 ==> f >= 0.0
    requires a / b < 0.0 ==> f <= 0.0
    requires a / b == 0.0 ==> f == 0.0
    ensures a >= 0.0 ==> b * f >= 0.0
    ensures a < 0.0 ==> b * f <= 0.0
  {
    var q := a / b;
    assert a == q * b;
    if b > 0.0 {
      if q >= 0.0 {
        ProductNonNegative(b, f);
      } else {
        ProductNonNegative(b, -f);
        assert a < 0.0 by { ProductPositive(-q, b); }
      }
    } else {
      if q > 0.0 {
        ProductNonNegative(-b, f);
        assert a < 0.0 by { ProductPositive(q, -b); }
      } else if q < 0.0 {
        ProductNonNegative(-b, -f);
        assert a > 0.0 by { ProductPositive(-q, -b); }
      }
    }
  }

  /** `|m| < |b|` when `m = b f` and `|f| < 1`. */
  lemma AbsProductBelow(m: real, b: real, f: real)
    requires b != 0.0 && Abs(f) < 1.0 && m == b * f
    ensures Abs(m) < Abs(b)
  {
    var ab := Abs(b);
    var af := Abs(f);
    assert Abs(m) == ab * af by {
      if b < 0.0 && f < 0.0 { assert b * f == (-b) * (-f); }
      else if b < 0.0 { assert -(b * f) == (-b) * f; }
      else if f < 0.0 { assert -(b * f) == b * (-f); }
    }
    MulMono(af, 1.0, ab);
    assert ab * af < ab by {
      ProductPositive(ab, 1.0 - af);
      assert ab * (1.0 - af) == ab - ab * af;
    }
  }

  /** `let d = p % size; if (d < 0) d += size;`. A zero extent makes the
      remainder NaN, which is None here: the star is drawn nowhere. */
  function Wrap(p: real, size: nat): (d: Option<real>)
    ensures size > 0 <==> d.Some?
    ensures size > 0 ==> 0.0 <= d.value < size as real
  {
    if size == 0 then None
    else
      var m := JsRem(p, size as real);
      Some(if m < 0.0 then m + size as real else m)
  }

  /** The floored remainder of `p` by `size`, `p - size * floor(p / size)`. */
  function FloorMod(p: real, size: nat): real
    requires size > 0
  {
    p - size as real * (p / size as real).Floor as real
  }

  /** The wrapped coordinate is the floored (Euclidean) remainder: it differs
      from `p` by a whole number of extents. */
  lemma WrapIsFloorMod(p: real, size: nat)
    requires size > 0
    ensures Wrap(p, size).value == FloorMod(p, size)
  {
    var s := size as real;
    var m := JsRem(p, s);
    var d := Wrap(p, size).value;
    assert d == (if m < 0.0 then m + s else m) && 0.0 <= d < s;
    assert ((p - m) / s).Floor as real == (p - m) / s;
    FloorFromRemainder(p, s, m, d);
  }

  /** A remainder `m` that is `p` less whole extents, lifted into [0, s) as
      `d`, is the floored remainder. */
  lemma FloorFromRemainder(p: real, s: real, m: real, d: real)
    requires 0.0 < s && ((p - m) / s).Floor as real == (p - m) / s
    requires d == (if m < 0.0 then m + s else m) && 0.0 <= d < s
    ensures d == p - s * (p / s).Floor as real
  {
    var k := ((p - m) / s).Floor;
    assert p - m == s * k as real by {
      QuotientWhole(p - m, s, k);
    }
    var j := if m < 0.0 then k - 1 else k;
    assert d == p - s * j as real by {
      if m < 0.0 {
        assert s * j as real == s * k as real - s;
      }
    }
    Bracket(p, s, j, d);
    DivBounds(p, s, j);
  }

  /** A point `d` of [0, s) that is `j` extents below `p` puts `p` in the
      `j`-th extent. */
  lemma Bracket(p: real, s: real, j: int, d: real)
    requires 0.0 <= d < s && d == p - s * j as real
    ensures j as real * s <= p < (j + 1) as real * s
  {
    assert (j + 1) as real * s == s * j as real + s;
  }

  /** A quotient that is a whole number `k` makes the dividend `k` divisors. */
  lemma QuotientWhole(x: real, s: real, k: int)
    requires s != 0.0 && x / s == k as real
    ensures x == s * k as real
  {
  }

  /** An integer `j` with `j s <= p < (j + 1) s` is the floor of `p / s`. */
  lemma DivBounds(p: real, s: real, j: int)
    requires 0.0 < s
    requires j as real * s <= p < (j + 1) as real * s
    ensures (p / s).Floor == j
  {
    var q := p / s;
    assert q * s == p;
    assert j as real <= q by {
      if q < j as real {
        MulMono(q, j as real, s);
      }
    }
    assert q < (j + 1) as real by {
      if q >= (j + 1) as real {
        MulMono((j + 1) as real, q, s);
        calc {
          p;
        <
          (j + 1) as real * s;
        <=
          q * s;
        ==
          p;
        }
      }
    }
  }

  /** A point already on screen is drawn where it is. */
  lemma WrapOnScreen(p: real, size: nat)
    requires 0.0 <= p < size as real
    ensures Wrap(p, size) == Some(p)
  {
    WrapIsFloorMod(p, size);
    DivBounds(p, size as real, 0);
  }

  /** The parallax shift: zero unless the pointer is active, then the offset
      from the pointer to the viewport centre. */
  function Parallax(pointer: Pointer, w: nat, h: nat): (v: Vec)
    ensures !pointer.active ==> v == Vec(0.0, 0.0)
    ensures pointer.active ==> v.x + pointer.x == w as real / 2.0 && v.y + pointer.y == h as real / 2.0
  {
    var mx := if pointer.active then pointer.x else w as real / 2.0;
    var my := if pointer.active then pointer.y else h as real / 2.0;
    Vec(w as real / 2.0 - mx, h as real / 2.0 - my)
  }

  /** A star coordinate moved by a tenth of the parallax times the star's
      depth `z`: stars with larger `z`, the nearer ones, move more. */
  function Shifted(c: real, parallax: real, z: real): real {
    c + parallax * z * 0.1
  }

  /** Where a star is drawn: its position shifted by the parallax, then
      wrapped. On a viewport with area, every star is drawn inside it, at the
      floored remainder of its shifted position. */
  function StarPosition(star: Star, parallax: Vec, w: nat, h: nat): (pos: Option<Vec>)
    ensures w > 0 && h > 0 <==> pos.Some?
    ensures pos.Some? ==> 0.0 <= pos.value.x < w as real && 0.0 <= pos.value.y < h as real
    ensures pos.Some? ==>
              pos.value == Vec(FloorMod(Shifted(star.x, parallax.x, star.z), w),
                               FloorMod(Shifted(star.y, parallax.y, star.z), h))
  {
    var px := Shifted(star.x, parallax.x, star.z);
    var py := Shifted(star.y, parallax.y, star.z);
    if w > 0 && h > 0 then
      WrapIsFloorMod(px, w);
      WrapIsFloorMod(py, h);
      Some(Vec(Wrap(px, w).value, Wrap(py, h).value))
    else
      None
  }

  /** With the pointer away, a star spawned on screen is drawn at its own position. */
  lemma RestingStar(star: Star, pointer: Pointer, w: nat, h: nat)
    requires !pointer.active
    requires 0.0 <= star.x < w as real && 0.0 <= star.y < h as real
    ensures StarPosition(star, Parallax(pointer, w, h), w, h) == Some(Vec(star.x, star.y))
  {
    WrapOnScreen(star.x, w);
    WrapOnScreen(star.y, h);
  }
}

=== FILE: types.dfy ===
/** The entities of the wallpaper simulation, as declared in types.ts.

    Coordinates and velocities are exact reals; the model does not follow
    IEEE-754 rounding. */
module Types {

  /** One draw of `Math.random()`: a real in [0, 1). */
  type Unit = r: real | 0.0 <= r < 1.0

  /** A 2-D vector: a velocity change or a screen offset. */
  datatype Vec = Vec(x: real, y: real)

  /** A colour palette; the four colours are CSS hex strings. */
  datatype Theme = Theme(name: string, primary: string, secondary: string, bg: string, accent: string)

  /** A foreground particle. `size` and `life` are set at spawn time and never
      change; the `type`, `trail`, `baseX` and `baseY` members that types.ts
      declares are never written or read by the canvas and are not modelled. */
  datatype Particle = Particle(x: real, y: real, vx: real, vy: real, size: real, life: real)

  /** A background star; `z` is its depth, which scales its parallax. */
  datatype Star = Star(x: real, y: real, z: real, size: real, brightness: real)

  datatype BodyKind = Planet | BlackHole | Sun

  /** A planet, sun or black hole; `angle` advances by `orbitSpeed` each frame
      when `orbitRadius > 0`. */
  datatype CelestialBody = CelestialBody(
    kind: BodyKind, x: real, y: real, radius: real, color: string,
    orbitSpeed: real, angle: real, orbitRadius: real)

  /** An expanding ring created by a mouse press. */
  datatype Shockwave = Shockwave(id: int, x: real, y: real, radius: real, maxRadius: real, strength: real)

  /** NET draws edges, MESH draws edges and triangles, PARTICLES draws neither. */
  datatype RenderMode = Net | Mesh | Particles

  /** The mouse state the event handlers write and the frame reads. */
  datatype Pointer = Pointer(x: real, y: real, active: bool)

  /** Sine and cosine, which the model does not compute: a frame takes them
      as a parameter. */
  datatype Trig = Trig(cos: real -> real, sin: real -> real)
}

=== FILE: voting.dfy ===
/** The proposal card: the approval rate shown as a whole percentage, and
    the vote buttons shown only while the proposal is open. */
module Voting {
  datatype ProposalStatus = Active | Closed

  datatype Proposal = Proposal(
    id: string, title: string, description: string,
    votesFor: int, votesAgainst: int, endDate: string, status: ProposalStatus)

  /** `Math.round` on an exact value: the nearest integer, halves rounded up. */
  function Round(x: real): (n: int)
    ensures n as real - 0.5 <= x < n as real + 0.5
  {
    (x + 0.5).Floor
  }

  /** The exact share of votes for, in percent. */
  function Share(votesFor: int, votesAgainst: int): real
    requires votesFor + votesAgainst != 0
  {
    (votesFor as real / (votesFor + votesAgainst) as real) * 100.0
  }

  /** `percentageFor`: no votes shows 0%, otherwise the share of votes for,
      rounded to the nearest whole percent with halves going up. */
  function ApprovalPercent(votesFor: int, votesAgainst: int): (p: int)
    ensures votesFor + votesAgainst == 0 ==> p == 0
    ensures votesFor + votesAgainst != 0 ==>
              p as real - 0.5 <= Share(votesFor, votesAgainst) < p as real + 0.5
    ensures votesFor >= 0 && votesAgainst >= 0 ==> 0 <= p <= 100
  {
    var total := votesFor + votesAgainst;
    if total == 0 then 0
    else
      var share := Share(votesFor, votesAgainst);
      if votesFor >= 0 && votesAgainst >= 0 then
        ShareBounds(votesFor, total);
        Round(share)
      else Round(share)
  }

  lemma ShareBounds(f: int, t: int)
    requires 0 <= f <= t && t > 0
    ensures 0.0 <= (f as real / t as real) * 100.0 <= 100.0
  {
    assert f as real / t as real <= 1.0 by {
      assert f as real <= t as real;
    }
  }

  lemma CancelFactor(a: real, b: real, c: real)
    requires c != 0.0 && a * c == b * c
    ensures a == b
  {
    assert (a - b) * c == 0.0;
  }

  /** For integers, the floor of an exact quotient is Euclidean division. */
  lemma FloorOfQuotient(a: int, b: int)
    requires b > 0
    ensures (a as real / b as real).Floor == a / b
  {
    var q := a / b;
    var r := a % b;
    assert a == q * b + r && 0 <= r < b;
    assert a as real / b as real == q as real + r as real / b as real by {
      assert a as real == q as real * b as real + r as real;
    }
    assert 0.0 <= r as real / b as real < 1.0;
  }

  /** The same percentage in integer arithmetic: `(200 f + t) div 2 t`. */
  lemma ApprovalAsIntegers(votesFor: int, votesAgainst: int)
    requires votesFor + votesAgainst > 0
    ensures var t := votesFor + votesAgainst;
            ApprovalPercent(votesFor, votesAgainst) == (200 * votesFor + t) / (2 * t)
  {
    var f := votesFor;
    var t := votesFor + votesAgainst;
    var x := f as real / t as real;
    var y := (200 * f + t) as real / (2 * t) as real;
    assert x * t as real == f as real;
    assert y * (2 * t) as real == (200 * f + t) as real;
    assert (x * 100.0 + 0.5) * (2 * t) as real == (200 * f + t) as real by {
      calc {
        (x * 100.0 + 0.5) * (2 * t) as real;
        200.0 * (x * t as real) + t as real;
        200.0 * f as real + t as real;
      }
    }
    CancelFactor(x * 100.0 + 0.5, y, (2 * t) as real);
    FloorOfQuotient(200 * f + t, 2 * t);
  }

  /** Unanimous votes show 100%; no votes for show 0%. */
  lemma Unanimous(votesFor: int, votesAgainst: int)
    ensures votesFor > 0 && votesAgainst == 0 ==> ApprovalPercent(votesFor, votesAgainst) == 100
    ensures votesFor == 0 ==> ApprovalPercent(votesFor, votesAgainst) == 0
  {
    if votesFor > 0 && votesAgainst == 0 {
      assert votesFor as real / votesFor as real == 1.0;
      assert Share(votesFor, votesAgainst) == 100.0;
    }
    if votesFor == 0 && votesAgainst != 0 {
      assert Share(votesFor, votesAgainst) == 0.0;
    }
  }

  /** The two shipped proposals. */
  const MockProposals: seq<Proposal> := [
    Proposal("1", "Increase Coffee Budget",
             "Proposal to increase the monthly office coffee budget by 20% to support local roasters.",
             45, 12, "2024-11-01", Active),
    Proposal("2", "Remote Work Policy Update",
             "Amend the bylaws to allow for 3 days of remote work per week for all eligible members.",
             120, 30, "2024-10-25", Closed)
  ]

  /** What a card shows that the code computes. */
  datatype CardView = CardView(percent: int, voteControls: bool)

  function Card(p: Proposal): (v: CardView)
    ensures v.voteControls <==> p.status == Active
    ensures p.votesFor >= 0 && p.votesAgainst >= 0 ==> 0 <= v.percent <= 100
    ensures v.percent == ApprovalPercent(p.votesFor, p.votesAgainst)
    ensures var t := p.votesFor + p.votesAgainst;
            t > 0 ==> v.percent == (200 * p.votesFor + t) / (2 * t)
  {
    var shown := ApprovalPercent(p.votesFor, p.votesAgainst);
    if p.votesFor + p.votesAgainst > 0 then
      ApprovalAsIntegers(p.votesFor, p.votesAgainst);
      CardView(shown, p.status == Active)
    else
      CardView(shown, p.status == Active)
  }

  /** The shipped cards: 79% with vote buttons, 80% without. */
  lemma ShippedCards()
    ensures Card(MockProposals[0]) == CardView(79, true)
    ensures Card(MockProposals[1]) == CardView(80, false)
  {
    ApprovalAsIntegers(45, 12);
    ApprovalAsIntegers(120, 30);
  }
}
